=== FILE: README.md ===
# Blackjack engine with hi-lo counting — a Dafny model

This project models the blackjack engine of `game.js`. It covers:

- a six-deck shoe built in a fixed order and shuffled by Fisher-Yates;
- a hi-lo running count that every drawn card updates, and that always equals the hi-lo total of the cards dealt from the current shoe;
- hand scoring with soft aces;
- the round state machine: deal, hit, stand, double down, settle and reset;
- the rules that enable the deal, hit, stand and double buttons.

The page's mutable globals (shoe, hands, bankroll, stake, round flags, running count, status message) become one immutable `GameState`. Each handler becomes a pure function from the old state to the new one.

The modules follow the program's layers:

- `Cards`: cards, their values, hi-lo weights and `createShoe`.
- `Shoe`: `shuffleInPlace`.
- `Scoring`: `handScore`.
- `Counting`: the true count and hint of `updateCountUI`.
- `Game`: the state and its transitions.
- `GameProofs`: properties that span several transitions.

`Math.random` is replaced by an index oracle `js`. Entry `js[i]` is the position the shuffle loop swaps with position `i`. An oracle is admissible when `js[i] <= i`: the shuffle draws a random whole number from zero up to the loop index, and these are exactly the values it can draw. Every transition that may rebuild the shoe takes one such oracle.

Money is modelled as exact reals. The code's bets come from `parseFloat`, and a blackjack pays two and a half times the stake.

Three behaviours of the code that the model keeps:

- **A refused deal can still reshuffle.** `deal` calls `ensureShoe` before it checks the bet (game.js:218-225). So a refused bet leaves the balance and hands alone, but it may have rebuilt the shoe and reset the count. See `Game.Deal`.
- **Deal order.** The dealer receives the first two cards drawn and the player the next two (game.js:237-238).
- **No idle guard in `deal`.** `deal` itself has no round-active guard; only the disabled button stops it. `Game.Deal` is modelled without the guard. The money and validity lemmas state what holds between rounds, which is where the button allows a deal.

## Model

| member | source | states |
|---|---|---|
| Cards.CardValueRange | game.js:80-84 | a card is worth 2 to 11: 11 exactly for an ace, 10 for a jack, queen or king, and face value for the pips; counted low, an ace is 1 and nothing exceeds 10 |
| Cards.CardValue | game.js:80-84 | a card's value lies between 2 and 11 and is 11 exactly for an ace |
| Cards.CountValue | game.js:73-78 | the hi-lo weight is -1, 0 or +1: +1 exactly for a value of 6 or less, -1 exactly for a value of 10 or more |
| Cards.SuitRowBalanced | game.js:57-78 | each suit of a deck holds five low cards and five ten-valued cards and aces, so its hi-lo total is zero |
| Cards.HiLoSumByRanks | game.js:72-78 | the hi-lo total of any cards is the number of 2-6 cards minus the number of tens, faces and aces |
| Cards.HiLoSplit | game.js:112-113 | the hi-lo total of a shoe is the total of the cards below any cut plus the total of the cards above it |
| Cards.PopSlices | game.js:112-113 | popping the top card and then taking `m` more leaves what taking `m + 1` from the full shoe leaves, and the `m + 1` cards taken weigh the `m` plus the popped card |
| Cards.HiLoPermutation | game.js:72-78 | two card sequences with the same cards have the same hi-lo total, whatever their order |
| Cards.DeckContents | game.js:53-63 | one deck has 52 cards and holds every rank-suit pair exactly once |
| Cards.CreateShoe | game.js:53-63 | the shoe of `decks` decks has `52 * decks` cards and holds every card exactly `decks` times; no decks gives an empty shoe |
| Cards.FullShoeComposition | game.js:53-63 | any ordering of a full shoe has `4 * decks` cards of each rank and `13 * decks` of each suit, and a hi-lo total of zero |
| Cards.CreateShoeComposition | game.js:53-63 | the unshuffled shoe is a full shoe: `52 * decks` cards, `4 * decks` per rank, `13 * decks` per suit, hi-lo total zero |
| Shoe.Swap | game.js:68 | the swap exchanges positions `i` and `j`, keeps every other position and keeps the multiset of cards |
| Shoe.ShuffleFrom | game.js:65-70 | the loop from index `i` down keeps the length and the cards, and never touches a position above `i` |
| Shoe.Shuffle | game.js:65-70 | shuffling keeps the length and the multiset of cards |
| Shoe.ShuffleKeepsHiLo | game.js:65-78 | shuffling never changes the hi-lo total of the shoe |
| Shoe.OracleFor | game.js:65-70 | from index `i` down, the loop can turn `a` into any `b` that agrees with `a` above `i` and holds the same cards at and below it, using an admissible oracle |
| Shoe.EveryOrderReachable | game.js:65-70 | every permutation of the input is the result of some admissible oracle, so the loop can produce every ordering |
| Scoring.HardTotalByAces | game.js:89-93 | the total with aces counted as 1 is the all-high total less 10 per ace |
| Scoring.DemoteBounds | game.js:94 | the demotion loop removes a multiple of ten, at most ten per ace; its result is over 21 only once every ace is demoted, and it demotes only when the hand would otherwise be over 21 |
| Scoring.HandScore | game.js:86-96 | the score lies between the all-low and the all-high totals, and is over 21 only as the all-low total |
| Scoring.HandScoreBounds | game.js:86-96 | the score is at most the all-high total and at least the all-low total, differs from the all-high total by a multiple of ten, is over 21 only as the all-low total, and is above 11 whenever an ace was demoted |
| Scoring.HandScoreIsBest | game.js:86-96 | if some choice of aces counted low gives a total of at most 21, the score is at most 21 and at least that total |
| Scoring.TwoCardsNeverBust | game.js:86-96 | a two-card hand never scores over 21 |
| Scoring.TwoCardTwentyOne | game.js:86-96 | a two-card hand scores 21 exactly when one card is an ace and the other is worth ten |
| Scoring.IsNatural | game.js:243-244 | a hand is a natural exactly when it has two cards, one an ace and the other worth ten |
| Scoring.ScoreExamples | game.js:86-96 | ace-six scores 17, ace-six-ten scores 17 rather than 27, and ace-king is a natural |
| Counting.DecksLeft | game.js:120 | decks left is the cards left over 52, but never below 0.1 |
| Counting.TrueCount | game.js:121 | the true count times the decks left is the running count, and it is positive or negative exactly when the running count is |
| Counting.CountHint | game.js:121-140 | the hint is player advantage exactly when the running count is at least three per deck left, dealer advantage exactly when it is at most minus three per deck left, and neutral otherwise |
| Counting.HintFollowsSign | game.js:118-140 | a player-advantage hint needs a positive count, a dealer-advantage hint a negative one, and a zero count is neutral |
| Counting.HintThresholds | game.js:118-140 | on a full six-deck shoe the hint turns at plus or minus 18; with five or fewer cards left, any positive count favours the player |
| Game.NewShoe | game.js:100-101 | a rebuilt shoe has 312 cards and is some ordering of six fresh decks |
| Game.EnsureShoe | game.js:98-106 | afterwards the shoe exists and holds at least 52 cards. A shoe that existed with 52 or more cards is left alone. Otherwise the shoe is replaced by a fresh shuffle, the count restarts at zero and the message says so. Hands, money and flags are never touched. |
| Game.Pop | game.js:112-113 | the popped card is the last card of the shoe, the rest of the shoe stays in order, and the count moves by the card's hi-lo weight |
| Game.DrawCard | game.js:108-116 | drawing from a non-empty shoe takes its last card; drawing from an empty shoe first rebuilds it, so the card comes from a fresh shoe and the count restarts from that card's weight |
| Game.DealerHit | game.js:277 | one dealer draw appends one card, keeps the earlier cards and strictly raises the all-low total; from a non-empty shoe the card is the shoe's last, the shoe loses it and the count moves by its hi-lo weight |
| Game.DealerPlay | game.js:276-278 | the dealer ends on 17 or more, keeps the cards held before, draws nothing when already on 17 or more, and leaves the player's hand and the money alone |
| Game.PopOrder | game.js:112 | the `k` cards that `k` pops take, in order: the shoe's last card first |
| Game.DealerPlayDraws | game.js:276-278 | when the shoe held enough cards, the dealer's `k` new cards are the shoe's last `k` in pop order, the shoe is what lies below them, and the count moved by their hi-lo total |
| Game.HighWater | game.js:355 | the best balance after settling is at least both the previous best and the new balance, and is one of the two |
| Game.Settle | game.js:315-380 | settling closes the round and clears the stake. It credits the payout for the table outcome and raises the best balance to the new balance if that is higher (`HighWater`). The message records the outcome and whether fewer than 52 cards remain. Cards and count are untouched. |
| Game.Classify | game.js:321-351 | the outcome is a player bust exactly when the player scores over 21, and a player blackjack exactly when the player alone has a natural |
| Game.Payout | game.js:321-351 | for a non-negative stake the credit is between nothing and 2.5 stakes, and only a blackjack, dealer bust, player win or push credits anything |
| Game.ClampBet | game.js:222 | the bet taken is never below the minimum; a finite bet at or above the minimum is taken as typed, and a non-finite or lower bet is taken as exactly the minimum |
| Game.StartRound | game.js:229-233 | opening a round moves the bet from the balance to the stake and marks the first action |
| Game.DealHands | game.js:237-238 | the dealer gets the last two cards of the shoe and the player the two before them; the shoe loses exactly those four, and the count moves by their hi-lo total |
| Game.Deal | game.js:217-255 | A bet over the balance after clamping is refused with a message, once the shoe has been ensured. Otherwise the hands are the top four cards of the ensured shoe. The shoe loses exactly those four cards and the count moves by their hi-lo total. A deal with no natural opens the round with the stake taken. A deal with a natural is settled at once with the payout of its outcome, the best balance raised to the new balance if higher, and a message naming the outcome and whether fewer than 52 cards remain. |
| Game.PlayerHit | game.js:259-260 | the player gets one more card and the earlier cards and the money stay; from a non-empty shoe the card is the shoe's last, the shoe loses it and the count moves by its hi-lo weight; the message stays unless an empty shoe was rebuilt, when it says so; the first action has passed |
| Game.Hit | game.js:257-269 | Outside a round nothing happens. Otherwise the player gets one more card and the first action has passed; from a non-empty shoe it is the shoe's last card, which leaves the shoe and moves the count. The round stays open exactly when the player has 21 or less, and then the money stays and the message changes only to report a rebuilt empty shoe. A bust settles as a player bust with no credit, the stake cleared and the best balance kept as the high-water mark of the balance. |
| Game.Stand | game.js:271-280 | Outside a round nothing happens. Otherwise the dealer draws to at least 17 and keeps its earlier cards, then the round settles with the payout of the resulting outcome. The first action has passed, the best balance is raised to the new balance if higher, and the message names the outcome and whether fewer than 52 cards remain. A dealer already on 17 draws nothing. When the shoe held enough cards, the dealer's new cards are the shoe's last ones in pop order and the count moved by their hi-lo total. |
| Game.RaiseStake | game.js:288-289 | doubling moves a second equal stake from the balance to the stake |
| Game.DoubleDraw | game.js:287-292 | after doubling the player gets exactly one more card with the doubled stake on the table; from a non-empty shoe it is the shoe's last card, which leaves the shoe and moves the count |
| Game.DealerTurn | game.js:294-307 | after the doubled card a busted player leaves the dealer's hand alone; otherwise the dealer ends on 17 or more, keeping its earlier cards, and with enough cards in the shoe its new cards are the shoe's last ones in pop order with the count moved by their hi-lo total |
| Game.DoublePlay | game.js:287-307 | before settling, a double takes a second stake, gives the player exactly one card and lets the dealer draw to 17 unless the player busted; the cards drawn come off the shoe in order |
| Game.DoubleDown | game.js:282-308 | Without the first-action guard nothing happens. When the balance cannot cover a second stake, only the message changes. Otherwise the player gets exactly one card and the round settles for twice the stake, with the dealer drawing only when the player did not bust and keeping its earlier cards. The best balance is raised to the new balance if higher, and the message names the outcome and whether fewer than 52 cards remain. |
| Game.SettleAfterDouble | game.js:282-308 | settling a state reached by an accepted double gives the doubled player card, the twice-stake payout, the high-water best balance and the outcome message of an accepted double |
| Game.DoubleDownDraws | game.js:282-308 | in an accepted double with enough cards in the shoe, `k` dealer draws take `k + 1` cards off the shoe's end: the first to the player, the rest to the dealer in pop order; the count moves by their hi-lo total |
| Game.Reset | game.js:383-403 | a reset restores the starting balance and best balance and leaves no shoe, no hands, no stake, a zero count and no round, with the first action pending, in a valid state |
| Game.Initial | game.js:422-426 | after page load the state is valid with no round open, and the shoe is a full six-deck shoe of 312 cards with count zero |
| Game.Valid | game.js:229-253 | in a valid state a stake is held exactly while a round is open, and in an open round the dealer's two cards score at most 20 and the player is not bust |
| Game.DealEnabled | game.js:198 | a live deal button means the bet is finite, is taken as typed and is within the balance, and the hit, stand and double buttons are then dead |
| Game.HitStandEnabled | game.js:199-200 | in a valid state the hit and stand buttons are live exactly while a stake is held |
| Game.MayDouble | game.js:283 | a state that passes the double guard has live hit and stand buttons; in a valid state the guard passes exactly on the first action of an open round |
| Game.DoubleEnabled | game.js:202 | a live double button implies live hit and stand buttons and two player cards; in a valid state it is live exactly on the first action of an open round when the balance covers the stake |
| GameProofs.NewShoeCountsZero | game.js:98-101 | every shuffle of a rebuilt shoe has a hi-lo total of zero |
| GameProofs.PopKeepsCount | game.js:112-113 | a pop keeps the running count equal to the hi-lo total of the cards dealt from the shoe |
| GameProofs.DrawCardKeepsCount | game.js:108-116 | a draw, with or without a rebuild, keeps the running count equal to the hi-lo total of the cards dealt from the current shoe |
| GameProofs.DealerPlayKeepsCount | game.js:276-278 | the dealer's loop keeps the count in step with the shoe |
| GameProofs.InitialCountMatches | game.js:383-426 | after a reset and after page load the count is in step with the shoe |
| GameProofs.DealKeepsCount | game.js:217-255 | a deal, accepted or refused, keeps the count in step with the shoe |
| GameProofs.HitKeepsCount | game.js:257-269 | a hit keeps the count in step with the shoe |
| GameProofs.StandKeepsCount | game.js:271-280 | a stand keeps the count in step with the shoe |
| GameProofs.DoubleDownKeepsCount | game.js:282-308 | a double keeps the count in step with the shoe |
| GameProofs.SettleKeepsCount | game.js:315-355 | settling keeps the count in step with the shoe |
| GameProofs.EnsureShoeIdempotent | game.js:411-415 | the second `ensureShoe` call of the deal button's handler changes nothing |
| GameProofs.DrawCardPops | game.js:108-116 | on a non-empty shoe a draw is a plain pop, with no reshuffle |
| GameProofs.DrawManyCount | game.js:108-116 | drawing `n` cards removes the last `n` from the shoe and adds their hi-lo total to the count |
| GameProofs.DealCounts | game.js:237-238 | an accepted deal adds the hi-lo total of the four dealt cards to the count of the ensured shoe |
| GameProofs.UnshuffledShoeCountsToZero | game.js:53-78 | dealing out a whole unshuffled shoe from a zero count brings the count back to zero |
| GameProofs.ReshuffledShoeCountsToZero | game.js:98-116 | after any reshuffle, dealing out the whole shoe brings the running count back to zero |
| GameProofs.DealerStopsAtFirstSeventeen | game.js:276-278 | every intermediate dealer hand scored below 17, so the dealer stops at the first hand that reaches 17 |
| GameProofs.DealerDrawBound | game.js:276-278 | the dealer draws at most 17 minus its all-low total in cards |
| GameProofs.ClassifyCharacterisation | game.js:321-351 | each of the seven outcomes holds exactly when its score and natural conditions hold, with the earlier branches' priority spelled out |
| GameProofs.PayoutIsOneOf | game.js:321-351 | settlement credits 0, the stake, twice the stake or 2.5 times the stake, never a negative amount |
| GameProofs.SettleNet | game.js:321-351 | against balance plus stake, a blackjack nets 1.5 stakes, a win nets one stake, a push nets nothing and a loss forfeits the stake |
| GameProofs.DealtNaturals | game.js:243-253 | a player natural alone pays 3 to 2, a dealer natural alone takes the bet, and two naturals push |
| GameProofs.DoubleDownNet | game.js:282-308 | a double is never a blackjack; against the money on the table before it, a win nets two stakes, a push nothing and a loss forfeits two stakes |
| GameProofs.SettleValid | game.js:315-355 | settling keeps the state invariant |
| GameProofs.DealValid | game.js:217-255 | dealing keeps the state invariant: balance non-negative and at most the best balance, a stake of at least the minimum exactly while a round is open, and no unsettled natural or bust |
| GameProofs.HitValid | game.js:257-269 | hitting keeps the state invariant |
| GameProofs.StandValid | game.js:271-280 | standing keeps the state invariant |
| GameProofs.DoubleDownValid | game.js:282-308 | doubling keeps the state invariant; in particular the balance never goes negative |
| GameProofs.StandNeverSettlesNatural | game.js:327-337 | from a valid open round, standing never settles as a player or dealer blackjack |
| GameProofs.DealConservesMoney | game.js:229-233 | a deal from between rounds that opens a round keeps balance plus stake unchanged |
| GameProofs.DealRefusedKeepsMoney | game.js:223-225 | a refused bet moves no money, deals no cards and leaves the round as it was |
| GameProofs.DoubleRefusedKeepsMoney | game.js:283-286 | a double the button would refuse moves no money and deals no cards |
| GameProofs.NoDoubleAfterHit | game.js:283 | after a hit, a double does nothing |
| GameProofs.NothingAfterStand | game.js:272-283 | after a stand, hit, stand and double all do nothing |
| GameProofs.DealEnabledAccepts | game.js:198 | when the deal button is live, the bet is taken as typed and `deal` does not refuse it |
| GameProofs.DealEnabledIffAccepted | game.js:198 | between rounds, for a typed bet of at least the minimum, the deal button is live exactly when `deal` accepts the bet |
| GameProofs.HitStandEnabledIffActs | game.js:199-200 | the hit and stand buttons are live exactly when hitting deals a card and standing changes the state |
| GameProofs.DoubleEnabledIffDoubles | game.js:202 | the double button is live exactly when doubling deals the player a card |

## Left out

- DOM rendering: card elements, `renderHands`, `formatMoney`, the score labels and the dealer's hole card. These are presentation only.
- The rounding in `updateCountUI` (one decimal for the true count and decks left). `Counting` computes the exact quotient.
- `Math.random` is replaced by an admissible index oracle. Uniformity of the shuffle is not a property of the model; only that every ordering is reachable is proved (`Shoe.EveryOrderReachable`).
- One oracle per transition. Every reshuffle within a transition uses the same oracle. From a state with a built shoe, at most one reshuffle happens per transition.
- `setTimeout` before settlement is replaced by settling at once. The code leaves `roundActive` true for 300 ms after a bust (game.js:264, 296) and for 420 ms after a dealt natural (game.js:250), after a stand (game.js:279) and after a double the player did not bust (game.js:307). Clicks in that window are not modelled. In it, hit is still live after the dealer has played, and after a dealt natural the double button is live when the remaining balance covers the stake (game.js:202), since `updateButtons` ran with the round open and the first action pending.
- `parseFloat` is modelled by `BetInput`: a finite amount, or a non-finite value. The text parsing itself is left out.
- Event wiring is left out, except that the deal handler's double `ensureShoe` appears as `GameProofs.EnsureShoeIdempotent`.
- The max-bet button is left out. It only writes into the bet box.
- The bet box's locking and its rounding to an integer after a deal are left out. The stake uses the unrounded bet, as in the code.
- The split button is a stub that only writes a message.
- Showing and hiding the reset button is left out; it does not change the state.
- JavaScript floating-point money is modelled as exact reals. Decimal amounts such as 10.1 are not exact in binary floating point, so the code's money sums round where the model's reals do not.
- Game.Deal: which outcome each combination of naturals produces is stated in the separate lemma `GameProofs.DealtNaturals`; `Game.Deal` itself states the outcome as the classification of the dealt hands.
- Game.DealerPlay: where the dealer's new cards come from is stated in the separate lemma `Game.DealerPlayDraws`, and only when the shoe held at least as many cards as the dealer drew. A shoe that runs out during the dealer's loop is rebuilt with the same oracle, and the cards after the rebuild are not described beyond the count staying in step (`GameProofs.DealerPlayKeepsCount`).
- Game.DoubleDown: where the drawn cards come from is stated in the separate lemma `Game.DoubleDownDraws`, under the same enough-cards condition.
- Game.Stand: the same enough-cards condition applies to its statement of where the dealer's cards come from.
- GameProofs.DrawManyCount: `DrawMany` is built from `Game.Pop`. The two agree on a non-empty shoe by `GameProofs.DrawCardPops`.
- `test.js`, the Randomizer, Simon Game and Drum Kit parts of the repository are outside the blackjack engine.

=== FILE: cards.dfy ===
/** Cards, the blackjack value of a card, its hi-lo counting weight, and the
    unshuffled multi-deck shoe built by `createShoe` (game.js). */
module Cards {

  datatype Suit = Spades | Hearts | Diamonds | Clubs

  datatype Rank = Ace | Two | Three | Four | Five | Six | Seven | Eight | Nine | Ten | Jack | Queen | King

  /** A card has no identity beyond its rank and suit: the copies of a card in
      a multi-deck shoe are equal values. */
  datatype Card = Card(suit: Suit, rank: Rank)

  /** Construction order of one deck: suits outermost, ranks innermost. */
  const Suits: seq<Suit> := [Spades, Hearts, Diamonds, Clubs]
  const Ranks: seq<Rank> := [Ace, Two, Three, Four, Five, Six, Seven, Eight, Nine, Ten, Jack, Queen, King]

  const CardsPerDeck: nat := 52

  /** Face value of a pip rank (what `parseInt` reads off the card's label). */
  function Pips(r: Rank): int
  {
    match r
    case Two => 2 case Three => 3 case Four => 4 case Five => 5 case Six => 6
    case Seven => 7 case Eight => 8 case Nine => 9 case Ten => 10
    case _ => 0
  }

  predicate IsPip(r: Rank)
  {
    r != Ace && r != Jack && r != Queen && r != King
  }

  /** The blackjack value of a card with the ace counted high. */
  function CardValue(c: Card): (v: int)
    ensures 2 <= v <= 11
    ensures v == 11 <==> c.rank == Ace
  {
    if c.rank in {Jack, Queen, King} then 10
    else if c.rank == Ace then 11
    else Pips(c.rank)
  }

  /** The blackjack value of a card with the ace counted low. */
  function HardValue(c: Card): int
  {
    if c.rank == Ace then 1 else CardValue(c)
  }

  /** The hi-lo weight of a card. */
  function CountValue(c: Card): (w: int)
    ensures -1 <= w <= 1
    ensures w == 1 <==> CardValue(c) <= 6
    ensures w == -1 <==> CardValue(c) >= 10
  {
    if c.rank in {Two, Three, Four, Five, Six} then 1
    else if c.rank in {Seven, Eight, Nine} then 0
    else -1
  }

  lemma CardValueRange(c: Card)
    ensures 2 <= CardValue(c) <= 11
    ensures CardValue(c) == 11 <==> c.rank == Ace
    ensures IsPip(c.rank) ==> CardValue(c) == Pips(c.rank)
    ensures c.rank in {Jack, Queen, King} ==> CardValue(c) == 10
    ensures 1 <= HardValue(c) <= 10
    ensures HardValue(c) == CardValue(c) - (if c.rank == Ace then 10 else 0)
  {
  }

  /** Hi-lo running total of a sequence of cards. */
  function HiLoSum(s: seq<Card>): int
  {
    if |s| == 0 then 0 else HiLoSum(s[..|s| - 1]) + CountValue(s[|s| - 1])
  }

  lemma HiLoSnoc(s: seq<Card>, c: Card)
    ensures HiLoSum(s + [c]) == HiLoSum(s) + CountValue(c)
  {
    assert (s + [c])[..|s|] == s;
  }

  /** Slicing a sequence with one more card at its end. */
  lemma SnocSlices(a: seq<Card>, c: Card, m: nat)
    requires m <= |a|
    ensures (a + [c])[..m] == a[..m]
    ensures (a + [c])[m..] == a[m..] + [c]
  {
  }

  lemma {:induction false} HiLoConcat(a: seq<Card>, b: seq<Card>)
    ensures HiLoSum(a + b) == HiLoSum(a) + HiLoSum(b)
    decreases |b|
  {
    if |b| > 0 {
      assert (a + b)[..|a + b| - 1] == a + b[..|b| - 1];
      HiLoConcat(a, b[..|b| - 1]);
    } else {
      assert a + b == a;
    }
  }

  /** The hi-lo total of a sequence is that of its first `k` cards plus that
      of the rest. */
  lemma HiLoSplit(a: seq<Card>, k: nat)
    requires k <= |a|
    ensures HiLoSum(a) == HiLoSum(a[..k]) + HiLoSum(a[k..])
  {
    assert a[..k] + a[k..] == a;
    HiLoConcat(a[..k], a[k..]);
  }

  /** Taking the last card off `d` and then `m` more takes the same cards as
      taking `m + 1` cards off `d`, and their hi-lo totals agree. */
  lemma PopSlices(d: seq<Card>, m: nat)
    requires m < |d|
    ensures d[..|d| - 1][..|d| - 1 - m] == d[..|d| - 1 - m]
    ensures HiLoSum(d[|d| - 1 - m..]) == HiLoSum(d[..|d| - 1][|d| - 1 - m..]) + CountValue(d[|d| - 1])
  {
    var init, top := d[..|d| - 1], d[|d| - 1];
    assert d == init + [top];
    SnocSlices(init, top, |d| - 1 - m);
    HiLoSnoc(init[|d| - 1 - m..], top);
  }

  /** The hi-lo total depends only on which cards are present, not on their
      order. */
  lemma {:induction false} HiLoPermutation(a: seq<Card>, b: seq<Card>)
    requires multiset(a) == multiset(b)
    ensures HiLoSum(a) == HiLoSum(b)
    decreases |a|
  {
    if |a| > 0 {
      var x := a[|a| - 1];
      assert a == a[..|a| - 1] + [x];
      assert x in multiset(b);
      var k :| 0 <= k < |b| && b[k] == x;
      var rest := b[..k] + b[k + 1..];
      assert b == b[..k] + [x] + b[k + 1..];
      assert multiset(rest) == multiset(b) - multiset{x};
      assert multiset(a[..|a| - 1]) == multiset(a) - multiset{x};
      HiLoPermutation(a[..|a| - 1], rest);
      HiLoConcat(b[..k] + [x], b[k + 1..]);
      HiLoConcat(b[..k], [x]);
      HiLoConcat(b[..k], b[k + 1..]);
      assert HiLoSum([x]) == CountValue(x) by { assert [x][..0] == []; }
    } else {
      assert b == [];
    }
  }

  function RanksOf(s: seq<Card>): (rs: seq<Rank>)
    ensures |rs| == |s|
  {
    seq(|s|, i requires 0 <= i < |s| => s[i].rank)
  }

  function SuitsOf(s: seq<Card>): (ss: seq<Suit>)
    ensures |ss| == |s|
  {
    seq(|s|, i requires 0 <= i < |s| => s[i].suit)
  }

  function RankCount(s: seq<Card>, r: Rank): nat
  {
    multiset(RanksOf(s))[r]
  }

  function SuitCount(s: seq<Card>, st: Suit): nat
  {
    multiset(SuitsOf(s))[st]
  }

  /** Number of low cards (2-6). */
  function LowCount(s: seq<Card>): nat
  {
    RankCount(s, Two) + RankCount(s, Three) + RankCount(s, Four) + RankCount(s, Five) + RankCount(s, Six)
  }

  /** Number of ten-valued cards and aces. */
  function HighCount(s: seq<Card>): nat
  {
    RankCount(s, Ten) + RankCount(s, Jack) + RankCount(s, Queen) + RankCount(s, King) + RankCount(s, Ace)
  }

  lemma RankCountSnoc(s: seq<Card>, c: Card, r: Rank)
    ensures RankCount(s + [c], r) == RankCount(s, r) + (if c.rank == r then 1 else 0)
  {
    assert RanksOf(s + [c]) == RanksOf(s) + [c.rank];
  }

  lemma LowCountSnoc(s: seq<Card>, c: Card)
    ensures LowCount(s + [c]) == LowCount(s) + (if CountValue(c) == 1 then 1 else 0)
  {
    RankCountSnoc(s, c, Two);
    RankCountSnoc(s, c, Three);
    RankCountSnoc(s, c, Four);
    RankCountSnoc(s, c, Five);
    RankCountSnoc(s, c, Six);
  }

  lemma HighCountSnoc(s: seq<Card>, c: Card)
    ensures HighCount(s + [c]) == HighCount(s) + (if CountValue(c) == -1 then 1 else 0)
  {
    RankCountSnoc(s, c, Ten);
    RankCountSnoc(s, c, Jack);
    RankCountSnoc(s, c, Queen);
    RankCountSnoc(s, c, King);
    RankCountSnoc(s, c, Ace);
  }

  /** The hi-lo total of any cards is the number of low cards minus the number
      of ten-valued cards and aces. */
  lemma {:induction false} HiLoSumByRanks(s: seq<Card>)
    ensures HiLoSum(s) == LowCount(s) - HighCount(s)
    decreases |s|
  {
    if |s| > 0 {
      var init, last := s[..|s| - 1], s[|s| - 1];
      HiLoSumByRanks(init);
      assert s == init + [last];
      LowCountSnoc(init, last);
      HighCountSnoc(init, last);
    } else {
      assert RanksOf(s) == [];
    }
  }

  /** The cards of suit `st` with the ranks `rs`, in that order. */
  function WithSuit(st: Suit, rs: seq<Rank>): (row: seq<Card>)
    ensures |row| == |rs|
  {
    seq(|rs|, i requires 0 <= i < |rs| => Card(st, rs[i]))
  }

  lemma {:induction false} WithSuitCount(st: Suit, rs: seq<Rank>, c: Card)
    ensures multiset(WithSuit(st, rs))[c] == (if c.suit == st then multiset(rs)[c.rank] else 0)
    decreases |rs|
  {
    if |rs| > 0 {
      var init := rs[..|rs| - 1];
      WithSuitCount(st, init, c);
      assert rs == init + [rs[|rs| - 1]];
      assert WithSuit(st, rs) == WithSuit(st, init) + [Card(st, rs[|rs| - 1])];
    } else {
      assert WithSuit(st, rs) == [];
    }
  }

  /** The thirteen cards of one suit, in rank order. */
  function SuitRow(st: Suit): seq<Card>
  {
    WithSuit(st, Ranks)
  }

  /** Each suit is balanced under hi-lo: its five low cards (2-6) weigh
      exactly as much as its five high ones (ten, jack, queen, king and ace),
      which is why every full deck, and every full shoe, counts to zero. */
  lemma SuitRowBalanced(st: Suit)
    ensures LowCount(SuitRow(st)) == 5 && HighCount(SuitRow(st)) == 5
    ensures HiLoSum(SuitRow(st)) == 0
  {
    var row := SuitRow(st);
    SuitRowRankCount(st, Two); SuitRowRankCount(st, Three); SuitRowRankCount(st, Four);
    SuitRowRankCount(st, Five); SuitRowRankCount(st, Six);
    SuitRowRankCount(st, Ten); SuitRowRankCount(st, Jack); SuitRowRankCount(st, Queen);
    SuitRowRankCount(st, King); SuitRowRankCount(st, Ace);
    HiLoSumByRanks(row);
  }

  /** A suit row holds each rank once. */
  lemma SuitRowRankCount(st: Suit, r: Rank)
    ensures RankCount(SuitRow(st), r) == 1
  {
    assert RanksOf(SuitRow(st)) == Ranks;
    RanksOnce(r);
  }

  /** One deck in construction order. */
  function Deck(): seq<Card>
  {
    SuitRow(Spades) + SuitRow(Hearts) + SuitRow(Diamonds) + SuitRow(Clubs)
  }

  /** Position of a rank in `Ranks`. */
  function RankIndex(r: Rank): (i: nat)
    ensures i < |Ranks| && Ranks[i] == r
    ensures forall j | 0 <= j < |Ranks| && Ranks[j] == r :: j == i
  {
    match r
    case Ace => 0
    case Two => 1
    case Three => 2
    case Four => 3
    case Five => 4
    case Six => 5
    case Seven => 6
    case Eight => 7
    case Nine => 8
    case Ten => 9
    case Jack => 10
    case Queen => 11
    case King => 12
  }

  /** An element of a sequence without repeats occurs in it once. */
  lemma {:induction false} OccursOnce<T>(s: seq<T>, x: T)
    requires forall i, j | 0 <= i < j < |s| :: s[i] != s[j]
    requires x in s
    ensures multiset(s)[x] == 1
    decreases |s|
  {
    var last := s[|s| - 1];
    var init := s[..|s| - 1];
    assert s == init + [last];
    if x == last {
      assert x !in init;
    } else {
      OccursOnce(init, x);
    }
  }

  /** `Ranks` lists every rank exactly once. */
  lemma RanksOnce(r: Rank)
    ensures multiset(Ranks)[r] == 1
  {
    forall i, j | 0 <= i < j < |Ranks|
      ensures Ranks[i] != Ranks[j]
    {
      var k := RankIndex(Ranks[i]);
    }
    OccursOnce(Ranks, r);
  }
  lemma SuitRowContents(st: Suit)
    ensures forall c :: multiset(SuitRow(st))[c] == (if c.suit == st then 1 else 0)
  {
    forall c
      ensures multiset(SuitRow(st))[c] == (if c.suit == st then 1 else 0)
    {
      WithSuitCount(st, Ranks, c);
      RanksOnce(c.rank);
    }
  }

  /** Every card occurs in a deck exactly once. */
  lemma DeckContents()
    ensures |Deck()| == CardsPerDeck
    ensures forall c :: multiset(Deck())[c] == 1
  {
    SuitRowContents(Spades);
    SuitRowContents(Hearts);
    SuitRowContents(Diamonds);
    SuitRowContents(Clubs);
  }

  /** A shoe of `decks` decks, in construction order. */
  function CreateShoe(decks: int): (shoe: seq<Card>)
    ensures decks <= 0 ==> shoe == []
    ensures decks > 0 ==> |shoe| == CardsPerDeck * decks
    ensures decks > 0 ==> forall c :: multiset(shoe)[c] == decks
    decreases decks
  {
    if decks <= 0 then []
    else
      DeckContents();
      CreateShoe(decks - 1) + Deck()
  }

  /** Every card occurs exactly `decks` times: the composition of a full shoe
      of `decks` decks, in any order. */
  ghost predicate IsFullShoe(s: seq<Card>, decks: nat)
  {
    forall c :: multiset(s)[c] == decks
  }

  lemma SuitCountSnoc(s: seq<Card>, c: Card, st: Suit)
    ensures SuitCount(s + [c], st) == SuitCount(s, st) + (if c.suit == st then 1 else 0)
  {
    assert SuitsOf(s + [c]) == SuitsOf(s) + [c.suit];
  }

  /** A rank is counted once per suit. */
  lemma {:induction false} RankCountBySuits(s: seq<Card>, r: Rank)
    ensures RankCount(s, r) == multiset(s)[Card(Spades, r)] + multiset(s)[Card(Hearts, r)]
                               + multiset(s)[Card(Diamonds, r)] + multiset(s)[Card(Clubs, r)]
    decreases |s|
  {
    if |s| > 0 {
      var init, last := s[..|s| - 1], s[|s| - 1];
      RankCountBySuits(init, r);
      assert s == init + [last];
      RankCountSnoc(init, last, r);
      assert multiset(s) == multiset(init) + multiset{last};
      assert last == Card(last.suit, last.rank);
      match last.suit
      case Spades =>
      case Hearts =>
      case Diamonds =>
      case Clubs =>
    } else {
      assert RanksOf(s) == [];
    }
  }

  /** The number of cards in `m` of suit `st` and one of the ranks `rs`. */
  function SuitTotal(m: multiset<Card>, st: Suit, rs: seq<Rank>): nat
  {
    if |rs| == 0 then 0 else SuitTotal(m, st, rs[..|rs| - 1]) + m[Card(st, rs[|rs| - 1])]
  }

  lemma {:induction false} SuitTotalAdd(m: multiset<Card>, c: Card, st: Suit, rs: seq<Rank>)
    ensures SuitTotal(m + multiset{c}, st, rs) ==
            SuitTotal(m, st, rs) + (if c.suit == st then multiset(rs)[c.rank] else 0)
    decreases |rs|
  {
    if |rs| > 0 {
      var init := rs[..|rs| - 1];
      SuitTotalAdd(m, c, st, init);
      assert rs == init + [rs[|rs| - 1]];
      assert multiset(rs) == multiset(init) + multiset{rs[|rs| - 1]};
    }
  }

  lemma {:induction false} SuitTotalUniform(m: multiset<Card>, st: Suit, rs: seq<Rank>, n: nat)
    requires forall c :: m[c] == n
    ensures SuitTotal(m, st, rs) == n * |rs|
    decreases |rs|
  {
    if |rs| > 0 {
      SuitTotalUniform(m, st, rs[..|rs| - 1], n);
    }
  }

  /** A suit is counted once per rank. */
  lemma {:induction false} SuitCountByRanks(s: seq<Card>, st: Suit)
    ensures SuitCount(s, st) == SuitTotal(multiset(s), st, Ranks)
    decreases |s|
  {
    if |s| > 0 {
      var init, last := s[..|s| - 1], s[|s| - 1];
      SuitCountByRanks(init, st);
      assert s == init + [last];
      SuitCountSnoc(init, last, st);
      assert multiset(s) == multiset(init) + multiset{last};
      SuitTotalAdd(multiset(init), last, st, Ranks);
      RanksOnce(last.rank);
    } else {
      assert SuitsOf(s) == [];
      SuitTotalUniform(multiset(s), st, Ranks, 0);
    }
  }

  /** A full shoe of `decks` decks, in any order, holds `4 * decks` cards of
      each rank and `13 * decks` of each suit, and its hi-lo weights cancel. */
  lemma FullShoeComposition(s: seq<Card>, decks: nat)
    requires IsFullShoe(s, decks)
    ensures forall r :: RankCount(s, r) == 4 * decks
    ensures forall st :: SuitCount(s, st) == 13 * decks
    ensures HiLoSum(s) == 0
  {
    forall r
      ensures RankCount(s, r) == 4 * decks
    {
      RankCountBySuits(s, r);
    }
    forall st
      ensures SuitCount(s, st) == 13 * decks
    {
      SuitCountByRanks(s, st);
      SuitTotalUniform(multiset(s), st, Ranks, decks);
    }
    HiLoSumByRanks(s);
  }

  /** The unshuffled shoe of `decks` decks: `52 * decks` cards, `4 * decks` of
      each rank, `13 * decks` of each suit, hi-lo total zero. */
  lemma CreateShoeComposition(decks: nat)
    ensures |CreateShoe(decks)| == CardsPerDeck * decks
    ensures IsFullShoe(CreateShoe(decks), decks)
    ensures forall r :: RankCount(CreateShoe(decks), r) == 4 * decks
    ensures forall st :: SuitCount(CreateShoe(decks), st) == 13 * decks
    ensures HiLoSum(CreateShoe(decks)) == 0
  {
    FullShoeComposition(CreateShoe(decks), decks);
  }
}

=== FILE: counting.dfy ===
/** The hi-lo advantage hint that `updateCountUI` (game.js) shows, computed
    over exact reals: the running count divided by the decks left, with the
    decks left floored at a tenth of a deck. The display rounding to one
    decimal is not modelled. */
module Counting {

  datatype Hint = PlayerAdvantage | DealerAdvantage | Neutral

  /** Decks left in the shoe, never below 0.1 so that the division is
      defined. */
  function DecksLeft(cardsLeft: nat): (d: real)
    ensures d >= 0.1 && d >= cardsLeft as real / 52.0
    ensures d == 0.1 || d == cardsLeft as real / 52.0
  {
    var exact := cardsLeft as real / 52.0;
    if exact > 0.1 then exact else 0.1
  }

  /** The running count per deck left. It has the sign of the running count,
      and it times the decks left gives the running count back. */
  function TrueCount(runningCount: int, cardsLeft: nat): (t: real)
    ensures t * DecksLeft(cardsLeft) == runningCount as real
    ensures t > 0.0 <==> runningCount > 0
    ensures t < 0.0 <==> runningCount < 0
  {
    var d := DecksLeft(cardsLeft);
    AtLeastTimes(runningCount as real, d, 0.0);
    runningCount as real / d
  }

  lemma AtLeastTimes(x: real, d: real, k: real)
    requires d > 0.0
    ensures x / d >= k <==> x >= k * d
    ensures x / d <= k <==> x <= k * d
  {
    assert x == (x / d) * d;
  }

  /** A true count of 3 or more favours the player, -3 or less the dealer;
      that is, a running count of at least three per deck left, or at most
      minus three per deck left. */
  function CountHint(runningCount: int, cardsLeft: nat): (h: Hint)
    ensures h == PlayerAdvantage <==> runningCount as real >= 3.0 * DecksLeft(cardsLeft)
    ensures h == DealerAdvantage <==> runningCount as real <= -3.0 * DecksLeft(cardsLeft)
    ensures h == Neutral <==> -3.0 * DecksLeft(cardsLeft) < runningCount as real < 3.0 * DecksLeft(cardsLeft)
  {
    var d := DecksLeft(cardsLeft);
    AtLeastTimes(runningCount as real, d, 3.0);
    AtLeastTimes(runningCount as real, d, -3.0);
    var t := TrueCount(runningCount, cardsLeft);
    if t >= 3.0 then PlayerAdvantage
    else if t <= -3.0 then DealerAdvantage
    else Neutral
  }

  /** The hint always has the sign of the running count, and a zero count is
      neutral. */
  lemma HintFollowsSign(runningCount: int, cardsLeft: nat)
    ensures CountHint(runningCount, cardsLeft) == PlayerAdvantage ==> runningCount > 0
    ensures CountHint(runningCount, cardsLeft) == DealerAdvantage ==> runningCount < 0
    ensures runningCount == 0 ==> CountHint(runningCount, cardsLeft) == Neutral
  {
  }

  /** With a full six-deck shoe the player is favoured from a running count
      of 18; with five cards or fewer left the floor of a tenth of a deck makes
      any positive count favour the player. */
  lemma HintThresholds(runningCount: int)
    ensures CountHint(runningCount, 312) == PlayerAdvantage <==> runningCount >= 18
    ensures CountHint(runningCount, 312) == DealerAdvantage <==> runningCount <= -18
    ensures forall cardsLeft: nat | cardsLeft <= 5 ::
      CountHint(runningCount, cardsLeft) == PlayerAdvantage <==> runningCount >= 1
  {
    assert DecksLeft(312) == 6.0;
  }
}

=== FILE: game.dfy ===
/** The round state machine of game.js with its DOM writes removed: the shoe,
    the running count, the two hands, the stake and the bankroll, and the
    deal, hit, stand, double-down, settle and reset transitions. Every
    transition is a pure function from the old state to the new one. Each
    transition that can reshuffle takes one index oracle `js` for the
    Fisher-Yates loop in place of `Math.random`. */
module Game {
  import opened Cards
  import opened Shoe
  import opened Scoring

  const StartBalance: real := 1000.0
  const ShoeDecks: nat := 6
  const MinBet: real := 10.0
  /** A shoe with fewer cards than this is rebuilt before the next deal. */
  const ShuffleThreshold: nat := 52
  const ShoeSize: nat := CardsPerDeck * ShoeDecks
  /** The dealer draws while the hand scores below this. */
  const DealerStand: int := 17

  /** The bet as `parseFloat` reads it from the input box: a finite amount,
      or NaN or an infinity. */
  datatype BetInput = Amount(value: real) | NonFinite

  /** The settlement branches of `settleRound`, in priority order. */
  datatype Outcome =
    | PlayerBust
    | PlayerBlackjack
    | DealerBlackjack
    | DealerBust
    | PlayerWins
    | DealerWins
    | Push

  /** The status line. `Settled` carries the outcome and whether the note that
      the shoe will be reshuffled on the next deal was appended. */
  datatype Message =
    | NoMessage
    | Reshuffled
    | NotEnoughBalance
    | NotEnoughToDouble
    | Settled(outcome: Outcome, shoeLow: bool)
    | GameReset

  datatype GameState = GameState(
    deck: seq<Card>,
    playerHand: seq<Card>,
    dealerHand: seq<Card>,
    balance: real,
    bestBalance: real,
    stake: real,
    roundActive: bool,
    firstAction: bool,
    runningCount: int,
    shoeCreated: bool,
    message: Message)

  /** The fields that drawing a card and reshuffling leave alone: the hands,
      the money and the round flags. */
  predicate SameTable(s: GameState, t: GameState)
  {
    && t.playerHand == s.playerHand
    && t.dealerHand == s.dealerHand
    && t.balance == s.balance
    && t.bestBalance == s.bestBalance
    && t.stake == s.stake
    && t.roundActive == s.roundActive
    && t.firstAction == s.firstAction
  }

  /** A freshly built, freshly shuffled shoe: some order of the cards of
      `ShoeDecks` decks. */
  function NewShoe(js: seq<nat>): (shoe: seq<Card>)
    requires Admissible(js, ShoeSize)
    ensures |shoe| == ShoeSize
    ensures multiset(shoe) == multiset(CreateShoe(ShoeDecks))
  {
    CreateShoeComposition(ShoeDecks);
    Shuffle(CreateShoe(ShoeDecks), js)
  }

  /** `ensureShoe`: a shoe that was never built, or that holds fewer than
      `ShuffleThreshold` cards, is replaced by a new shuffled shoe and the
      running count restarts at zero; otherwise nothing happens. */
  function EnsureShoe(s: GameState, js: seq<nat>): (r: GameState)
    requires Admissible(js, ShoeSize)
    ensures |r.deck| >= ShuffleThreshold && r.shoeCreated
    ensures SameTable(s, r)
    ensures s.shoeCreated && |s.deck| >= ShuffleThreshold ==> r == s
    ensures !(s.shoeCreated && |s.deck| >= ShuffleThreshold) ==>
      && r.deck == NewShoe(js)
      && r.runningCount == 0
      && r.message == Reshuffled
  {
    if !s.shoeCreated || |s.deck| < ShuffleThreshold then
      s.(deck := NewShoe(js), runningCount := 0, shoeCreated := true, message := Reshuffled)
    else
      s
  }

  /** Taking the last card off a non-empty shoe and adding its hi-lo weight to
      the running count. */
  function Pop(s: GameState): (res: (Card, GameState))
    requires |s.deck| > 0
    ensures res.1.deck + [res.0] == s.deck
    ensures res.0 == s.deck[|s.deck| - 1] && res.1.deck == s.deck[..|s.deck| - 1]
    ensures res.1.runningCount == s.runningCount + CountValue(res.0)
    ensures SameTable(s, res.1) && res.1.shoeCreated == s.shoeCreated && res.1.message == s.message
  {
    var n := |s.deck|;
    var c := s.deck[n - 1];
    assert s.deck[..n - 1] + [c] == s.deck;
    (c, s.(deck := s.deck[..n - 1], runningCount := s.runningCount + CountValue(c)))
  }

  /** `drawCard`: an empty shoe is rebuilt first, then the last card is popped
      and its hi-lo weight added to the running count. Drawing never fails. */
  function DrawCard(s: GameState, js: seq<nat>): (res: (Card, GameState))
    requires Admissible(js, ShoeSize)
    ensures SameTable(s, res.1)
    ensures |s.deck| > 0 ==>
      && res.1.deck + [res.0] == s.deck
      && res.0 == s.deck[|s.deck| - 1] && res.1.deck == s.deck[..|s.deck| - 1]
      && res.1.runningCount == s.runningCount + CountValue(res.0)
      && res.1.shoeCreated == s.shoeCreated
      && res.1.message == s.message
    ensures |s.deck| == 0 ==>
      && res.1.deck + [res.0] == NewShoe(js)
      && |res.1.deck| == ShoeSize - 1
      && res.1.runningCount == CountValue(res.0)
      && res.1.shoeCreated
      && res.1.message == Reshuffled
  {
    if |s.deck| == 0 then Pop(EnsureShoe(s, js)) else Pop(s)
  }

  /** The last `k` cards of the shoe in the order successive pops take them:
      the last card first. */
  function PopOrder(deck: seq<Card>, k: nat): (popped: seq<Card>)
    requires k <= |deck|
    ensures |popped| == k
    ensures forall i | 0 <= i < k :: popped[i] == deck[|deck| - 1 - i]
    decreases k
  {
    if k == 0 then [] else [deck[|deck| - 1]] + PopOrder(deck[..|deck| - 1], k - 1)
  }

  /** `r` is `s` with the last `m` cards gone from the shoe and their hi-lo
      weights added to the running count. */
  predicate ShoeLost(s: GameState, r: GameState, m: nat)
  {
    && m <= |s.deck|
    && r.deck == s.deck[..|s.deck| - m]
    && r.runningCount == s.runningCount + HiLoSum(s.deck[|s.deck| - m..])
  }

  /** `r` is `s` after the dealer drew `k` cards without a reshuffle: they
      left the shoe, moved the count, and follow the dealer's earlier cards in
      the order they were popped. */
  predicate DealerDrew(s: GameState, r: GameState, k: nat)
  {
    ShoeLost(s, r, k) && r.dealerHand == s.dealerHand + PopOrder(s.deck, k)
  }

  lemma DrewNothing(s: GameState)
    ensures DealerDrew(s, s, 0)
  {
    assert s.deck[..|s.deck|] == s.deck && s.deck[|s.deck|..] == [];
    assert s.dealerHand + [] == s.dealerHand;
  }

  /** One pop followed by `m` more is `m + 1` pops. */
  lemma ShoeLostStep(s: GameState, t: GameState, r: GameState, m: nat)
    requires |s.deck| > 0
    requires t.deck == s.deck[..|s.deck| - 1]
    requires t.runningCount == s.runningCount + CountValue(s.deck[|s.deck| - 1])
    requires ShoeLost(t, r, m)
    ensures ShoeLost(s, r, m + 1)
  {
    PopSlices(s.deck, m);
  }

  /** A dealer draw from a non-empty shoe followed by `k` more is `k + 1`
      draws; from an empty shoe the premise of the conclusion fails. */
  lemma DealerDrewStep(s: GameState, t: GameState, r: GameState)
    requires |t.dealerHand| == |s.dealerHand| + 1 && |t.dealerHand| <= |r.dealerHand|
    requires |s.deck| > 0 ==>
      && t.dealerHand == s.dealerHand + [s.deck[|s.deck| - 1]]
      && t.deck == s.deck[..|s.deck| - 1]
      && t.runningCount == s.runningCount + CountValue(s.deck[|s.deck| - 1])
    requires |r.dealerHand| <= |t.dealerHand| + |t.deck| ==> DealerDrew(t, r, |r.dealerHand| - |t.dealerHand|)
    ensures |r.dealerHand| <= |s.dealerHand| + |s.deck| ==> DealerDrew(s, r, |r.dealerHand| - |s.dealerHand|)
  {
    var k := |r.dealerHand| - |s.dealerHand|;
    if k <= |s.deck| {
      var top := s.deck[|s.deck| - 1];
      ShoeLostStep(s, t, r, k - 1);
      assert PopOrder(s.deck, k) == [top] + PopOrder(t.deck, k - 1);
      assert r.dealerHand == s.dealerHand + [top] + PopOrder(t.deck, k - 1);
    }
  }

  /** One pass of the dealer's loop: a card is drawn and pushed onto the
      dealer's hand. The all-low total rises with it. */
  function DealerHit(s: GameState, js: seq<nat>): (r: GameState)
    requires Admissible(js, ShoeSize)
    ensures |r.dealerHand| == |s.dealerHand| + 1 && r.dealerHand[..|s.dealerHand|] == s.dealerHand
    ensures |s.deck| > 0 ==>
      && r.dealerHand == s.dealerHand + [s.deck[|s.deck| - 1]]
      && r.deck == s.deck[..|s.deck| - 1]
      && r.runningCount == s.runningCount + CountValue(s.deck[|s.deck| - 1])
    ensures HardTotal(r.dealerHand) > HardTotal(s.dealerHand)
    ensures r.playerHand == s.playerHand && r.balance == s.balance && r.bestBalance == s.bestBalance
    ensures r.stake == s.stake && r.roundActive == s.roundActive && r.firstAction == s.firstAction
  {
    var (c, t) := DrawCard(s, js);
    HardTotalSnoc(s.dealerHand, c);
    assert (t.dealerHand + [c])[..|s.dealerHand|] == s.dealerHand;
    t.(dealerHand := t.dealerHand + [c])
  }

  /** The dealer's loop: while the dealer's hand scores below 17, a drawn card
      is pushed onto it. It terminates because each card raises the all-low total by at least one
      and the score never falls below that total; the dealer then holds at
      least 17 and keeps the cards it held before. Where the cards come from is stated
      by `DealerPlayDraws`. */
  function DealerPlay(s: GameState, js: seq<nat>): (r: GameState)
    requires Admissible(js, ShoeSize)
    ensures HandScore(r.dealerHand) >= DealerStand
    ensures |s.dealerHand| <= |r.dealerHand| && r.dealerHand[..|s.dealerHand|] == s.dealerHand
    ensures HandScore(s.dealerHand) >= DealerStand ==> r.dealerHand == s.dealerHand
    ensures r.playerHand == s.playerHand && r.balance == s.balance && r.bestBalance == s.bestBalance
    ensures r.stake == s.stake && r.roundActive == s.roundActive && r.firstAction == s.firstAction
    decreases DealerStand - HardTotal(s.dealerHand)
  {
    if HandScore(s.dealerHand) >= DealerStand then s
    else
      var t := DealerHit(s, js);
      var r := DealerPlay(t, js);
      var m := |s.dealerHand|;
      assert r.dealerHand[..m] == r.dealerHand[..m + 1][..m] == s.dealerHand;
      r
  }

  /** The dealer's cards come off the shoe: when the shoe held at least as
      many cards as the dealer drew, no reshuffle happened, the new cards are
      the shoe's last ones in pop order, and the count moved by their hi-lo
      total. */
  lemma {:induction false} DealerPlayDraws(s: GameState, js: seq<nat>)
    requires Admissible(js, ShoeSize)
    ensures var r := DealerPlay(s, js);
      |r.dealerHand| <= |s.dealerHand| + |s.deck| ==> DealerDrew(s, r, |r.dealerHand| - |s.dealerHand|)
    decreases DealerStand - HardTotal(s.dealerHand)
  {
    if HandScore(s.dealerHand) >= DealerStand {
      DrewNothing(s);
    } else {
      var t := DealerHit(s, js);
      assert DealerPlay(s, js) == DealerPlay(t, js);
      DealerPlayDraws(t, js);
      DealerDrewStep(s, t, DealerPlay(t, js));
    }
  }

  /** The payout table of `settleRound`, first matching rule wins. A natural is
      a two-card 21. */
  function Classify(player: seq<Card>, dealer: seq<Card>): (o: Outcome)
    ensures o == PlayerBust <==> HandScore(player) > 21
    ensures o == PlayerBlackjack <==> IsNatural(player) && !IsNatural(dealer)
  {
    var ps := HandScore(player);
    var ds := HandScore(dealer);
    if ps > 21 then PlayerBust
    else if IsNatural(player) && !IsNatural(dealer) then PlayerBlackjack
    else if IsNatural(dealer) && !IsNatural(player) then DealerBlackjack
    else if ds > 21 then DealerBust
    else if ps > ds then PlayerWins
    else if ps < ds then DealerWins
    else Push
  }

  /** What the bankroll is credited at settlement; the stake itself was
      already taken from it. A blackjack returns the stake and pays 3 to 2, a
      win returns the stake and pays even money, a push returns the stake. */
  function Payout(o: Outcome, stake: real): (credit: real)
    ensures stake >= 0.0 ==> 0.0 <= credit <= 2.5 * stake
    ensures credit > 0.0 ==> o in {PlayerBlackjack, DealerBust, PlayerWins, Push}
  {
    if o == PlayerBlackjack then stake * 2.5
    else if o == DealerBust || o == PlayerWins then stake * 2.0
    else if o == Push then stake
    else 0.0
  }

  /** The best balance after the balance becomes `balance`: the larger of
      the two. */
  function HighWater(best: real, balance: real): (b: real)
    ensures b >= best && b >= balance
    ensures b == best || b == balance
  {
    if balance > best then balance else best
  }

  /** `settleRound`: credits the payout, clears the stake, ends the round and
      raises the high-water mark. Cards and count are left as they are. */
  function Settle(s: GameState): (r: GameState)
    ensures !r.roundActive && r.stake == 0.0
    ensures r.bestBalance == HighWater(s.bestBalance, r.balance)
    ensures r.balance == s.balance + Payout(Classify(s.playerHand, s.dealerHand), s.stake)
    ensures r.bestBalance >= r.balance && r.bestBalance >= s.bestBalance
    ensures r.bestBalance == s.bestBalance || r.bestBalance == r.balance
    ensures r.message == Settled(Classify(s.playerHand, s.dealerHand), |s.deck| < ShuffleThreshold)
    ensures r.deck == s.deck && r.playerHand == s.playerHand && r.dealerHand == s.dealerHand
    ensures r.runningCount == s.runningCount && r.shoeCreated == s.shoeCreated && r.firstAction == s.firstAction
  {
    var o := Classify(s.playerHand, s.dealerHand);
    var balance := s.balance + Payout(o, s.stake);
    s.(roundActive := false,
       stake := 0.0,
       balance := balance,
       bestBalance := HighWater(s.bestBalance, balance),
       message := Settled(o, |s.deck| < ShuffleThreshold))
  }

  /** A bet that is not a finite number, or is below the minimum, is raised to
      the minimum. */
  function ClampBet(bet: BetInput): (b: real)
    ensures b >= MinBet
    ensures bet.Amount? && bet.value >= MinBet ==> b == bet.value
    ensures bet.NonFinite? || bet.value < MinBet ==> b == MinBet
  {
    if bet.NonFinite? || bet.value < MinBet then MinBet else bet.value
  }

  /** Taking the stake up front: the money moves from the balance to the
      stake and the round opens. */
  function StartRound(s: GameState, bet: real): (r: GameState)
    ensures r.balance + r.stake == s.balance
    ensures r.stake == bet && r.roundActive && r.firstAction
    ensures r.deck == s.deck && r.runningCount == s.runningCount && r.bestBalance == s.bestBalance
  {
    s.(roundActive := true, firstAction := true, stake := bet, balance := s.balance - bet, message := NoMessage)
  }

  /** The two `drawCard` calls for the dealer followed by the two for the
      player. With at least four cards in the shoe nothing is reshuffled and
      each draw is a plain `Pop`: the dealer gets the last two cards, the
      player the two before them. */
  function DealHands(s: GameState): (r: GameState)
    requires |s.deck| >= 4
    ensures var n := |s.deck|;
      && r.dealerHand == [s.deck[n - 1], s.deck[n - 2]]
      && r.playerHand == [s.deck[n - 3], s.deck[n - 4]]
      && r.deck == s.deck[..n - 4]
      && r.runningCount == s.runningCount + HiLoSum(s.deck[n - 4..])
    ensures r.balance == s.balance && r.bestBalance == s.bestBalance && r.stake == s.stake
    ensures r.roundActive == s.roundActive && r.firstAction == s.firstAction
    ensures r.shoeCreated == s.shoeCreated && r.message == s.message
  {
    var (d1, t1) := Pop(s);
    var (d2, t2) := Pop(t1);
    var (p1, t3) := Pop(t2);
    var (p2, t4) := Pop(t3);
    var n := |s.deck|;
    assert [d1, d2, p1, p2] == [s.deck[n - 1], s.deck[n - 2], s.deck[n - 3], s.deck[n - 4]];
    assert t4.deck == s.deck[..n - 4];
    assert HiLoSum(s.deck[n - 4..]) == CountValue(p2) + CountValue(p1) + CountValue(d2) + CountValue(d1) by {
      assert s.deck[n - 4..] == [p2, p1, d2] + [d1];
      assert [p2, p1, d2] == [p2, p1] + [d2] && [p2, p1] == [p2] + [p1] && [p2] == [] + [p2];
      HiLoSnoc([], p2);
      HiLoSnoc([p2], p1);
      HiLoSnoc([p2, p1], d2);
      HiLoSnoc([p2, p1, d2], d1);
    }
    t4.(dealerHand := [d1, d2], playerHand := [p1, p2])
  }

  /** `deal`: makes sure of the shoe, clamps the bet and refuses it when it is
      over the balance (the shoe may still have been rebuilt). Otherwise it
      takes the stake, deals two cards to the dealer and then two to the
      player, and settles at once when either side holds a natural. */
  function Deal(s: GameState, bet: BetInput, js: seq<nat>): (r: GameState)
    requires Admissible(js, ShoeSize)
    ensures var e := EnsureShoe(s, js);
      ClampBet(bet) > s.balance ==> r == e.(message := NotEnoughBalance)
    ensures var e := EnsureShoe(s, js); var n := |e.deck|;
      ClampBet(bet) <= s.balance ==>
        && r.dealerHand == [e.deck[n - 1], e.deck[n - 2]]
        && r.playerHand == [e.deck[n - 3], e.deck[n - 4]]
        && r.deck == e.deck[..n - 4]
        && r.shoeCreated
    ensures ClampBet(bet) <= s.balance ==> ShoeLost(EnsureShoe(s, js), r, 4)
    ensures ClampBet(bet) <= s.balance && !IsNatural(r.playerHand) && !IsNatural(r.dealerHand) ==>
      && r.roundActive && r.firstAction
      && r.stake == ClampBet(bet) && r.balance == s.balance - ClampBet(bet)
      && r.bestBalance == s.bestBalance && r.message == NoMessage
    ensures ClampBet(bet) <= s.balance && (IsNatural(r.playerHand) || IsNatural(r.dealerHand)) ==>
      && !r.roundActive && r.stake == 0.0
      && r.balance == s.balance - ClampBet(bet) + Payout(Classify(r.playerHand, r.dealerHand), ClampBet(bet))
      && r.bestBalance == HighWater(s.bestBalance, r.balance)
      && r.message == Settled(Classify(r.playerHand, r.dealerHand), |r.deck| < ShuffleThreshold)
  {
    var e := EnsureShoe(s, js);
    var bet := ClampBet(bet);
    if bet > e.balance then
      e.(message := NotEnoughBalance)
    else
      var dealt := DealHands(StartRound(e, bet));
      assert dealt.balance == s.balance - bet && dealt.stake == bet;
      if IsNatural(dealt.playerHand) || IsNatural(dealt.dealerHand) then
        Settle(dealt)
      else dealt
  }

  /** A card drawn for the player, which also rules out a later double. With
      cards in the shoe it is the last one. */
  function PlayerHit(s: GameState, js: seq<nat>): (r: GameState)
    requires Admissible(js, ShoeSize)
    ensures |r.playerHand| == |s.playerHand| + 1 && r.playerHand[..|s.playerHand|] == s.playerHand
    ensures |s.deck| > 0 ==>
      && r.playerHand == s.playerHand + [s.deck[|s.deck| - 1]]
      && r.deck == s.deck[..|s.deck| - 1]
      && r.runningCount == s.runningCount + CountValue(s.deck[|s.deck| - 1])
    ensures r.message == (if |s.deck| > 0 then s.message else Reshuffled)
    ensures r.dealerHand == s.dealerHand && !r.firstAction
    ensures r.balance == s.balance && r.stake == s.stake && r.bestBalance == s.bestBalance
    ensures r.roundActive == s.roundActive
  {
    var (c, t) := DrawCard(s, js);
    assert (t.playerHand + [c])[..|s.playerHand|] == s.playerHand;
    t.(playerHand := t.playerHand + [c], firstAction := false)
  }

  /** `hit`: ignored outside a round. Draws a card for the player, rules out a
      later double, and settles at once when the player busts. */
  function Hit(s: GameState, js: seq<nat>): (r: GameState)
    requires Admissible(js, ShoeSize)
    ensures !s.roundActive ==> r == s
    ensures s.roundActive ==>
      && |r.playerHand| == |s.playerHand| + 1 && r.playerHand[..|s.playerHand|] == s.playerHand
      && r.dealerHand == s.dealerHand && !r.firstAction
      && (r.roundActive <==> HandScore(r.playerHand) <= 21)
    ensures s.roundActive && |s.deck| > 0 ==>
      && r.playerHand == s.playerHand + [s.deck[|s.deck| - 1]]
      && r.deck == s.deck[..|s.deck| - 1]
      && r.runningCount == s.runningCount + CountValue(s.deck[|s.deck| - 1])
    ensures s.roundActive && HandScore(r.playerHand) <= 21 ==>
      && r.balance == s.balance && r.stake == s.stake && r.bestBalance == s.bestBalance
      && r.message == (if |s.deck| > 0 then s.message else Reshuffled)
    ensures s.roundActive && HandScore(r.playerHand) > 21 ==>
      && r.balance == s.balance && r.stake == 0.0
      && r.bestBalance == HighWater(s.bestBalance, s.balance)
      && r.message == Settled(PlayerBust, |r.deck| < ShuffleThreshold)
  {
    if !s.roundActive then s
    else
      var h := PlayerHit(s, js);
      if HandScore(h.playerHand) > 21 then Settle(h) else h
  }

  /** `stand`: ignored outside a round. The dealer draws to 17, then the round
      is settled. */
  function Stand(s: GameState, js: seq<nat>): (r: GameState)
    requires Admissible(js, ShoeSize)
    ensures !s.roundActive ==> r == s
    ensures s.roundActive ==>
      && !r.roundActive && r.stake == 0.0
      && r.playerHand == s.playerHand
      && |s.dealerHand| <= |r.dealerHand| && r.dealerHand[..|s.dealerHand|] == s.dealerHand
      && HandScore(r.dealerHand) >= DealerStand
      && r.balance == s.balance + Payout(Classify(r.playerHand, r.dealerHand), s.stake)
      && r.bestBalance == HighWater(s.bestBalance, r.balance)
      && r.message == Settled(Classify(r.playerHand, r.dealerHand), |r.deck| < ShuffleThreshold)
      && !r.firstAction
    ensures s.roundActive && HandScore(s.dealerHand) >= DealerStand ==> r.dealerHand == s.dealerHand
    ensures s.roundActive && |s.dealerHand| <= |r.dealerHand| <= |s.dealerHand| + |s.deck| ==>
      DealerDrew(s, r, |r.dealerHand| - |s.dealerHand|)
  {
    if !s.roundActive then s
    else
      var d := DealerPlay(s.(firstAction := false), js);
      DealerPlayDraws(s.(firstAction := false), js);
      Settle(d)
  }

  /** The double-down guard: a round on its first action with exactly two
      player cards. */
  function MayDouble(s: GameState): (may: bool)
    ensures may ==> HitStandEnabled(s)
    ensures Valid(s) ==> (may <==> s.roundActive && s.firstAction)
  {
    s.roundActive && s.firstAction && |s.playerHand| == 2
  }

  /** Taking a second stake equal to the first: the money moves from the
      balance to the stake. */
  function RaiseStake(s: GameState): (r: GameState)
    ensures r.balance + r.stake == s.balance + s.stake
    ensures r.stake == 2.0 * s.stake
    ensures r.deck == s.deck && r.playerHand == s.playerHand && r.dealerHand == s.dealerHand
    ensures r.runningCount == s.runningCount && r.shoeCreated == s.shoeCreated
    ensures r.roundActive == s.roundActive && r.bestBalance == s.bestBalance
  {
    s.(balance := s.balance - s.stake, stake := s.stake * 2.0)
  }

  /** The player's one card after doubling; the double also rules out any
      later double. */
  function DoubleDraw(s: GameState, js: seq<nat>): (r: GameState)
    requires Admissible(js, ShoeSize)
    ensures |r.playerHand| == |s.playerHand| + 1 && r.playerHand[..|s.playerHand|] == s.playerHand
    ensures |s.deck| > 0 ==>
      && r.playerHand == s.playerHand + [s.deck[|s.deck| - 1]]
      && r.deck == s.deck[..|s.deck| - 1]
      && r.runningCount == s.runningCount + CountValue(s.deck[|s.deck| - 1])
    ensures r.dealerHand == s.dealerHand && !r.firstAction
    ensures r.balance + r.stake == s.balance + s.stake && r.stake == 2.0 * s.stake
    ensures r.roundActive == s.roundActive && r.bestBalance == s.bestBalance
  {
    PlayerHit(RaiseStake(s), js)
  }

  /** After the doubled card: a busted player settles at once and the dealer
      does not draw; otherwise the dealer draws to 17. */
  function DealerTurn(h: GameState, js: seq<nat>): (f: GameState)
    requires Admissible(js, ShoeSize)
    ensures HandScore(h.playerHand) > 21 ==> f == h
    ensures HandScore(h.playerHand) <= 21 ==> HandScore(f.dealerHand) >= DealerStand
    ensures HandScore(h.dealerHand) >= DealerStand ==> f.dealerHand == h.dealerHand
    ensures |h.dealerHand| <= |f.dealerHand| && f.dealerHand[..|h.dealerHand|] == h.dealerHand
    ensures |f.dealerHand| <= |h.dealerHand| + |h.deck| ==> DealerDrew(h, f, |f.dealerHand| - |h.dealerHand|)
    ensures f.playerHand == h.playerHand && f.balance == h.balance && f.stake == h.stake
    ensures f.firstAction == h.firstAction
  {
    if HandScore(h.playerHand) > 21 then
      DrewNothing(h);
      h
    else
      DealerPlayDraws(h, js);
      DealerPlay(h, js)
  }

  /** `f` is `s` after a double drew the player's card and then `k` dealer
      cards without a reshuffle: `k + 1` cards left the top of the shoe and
      moved the count, the first went to the player and the rest, in the order
      they were popped, follow the dealer's earlier cards. */
  predicate DoubleDrew(s: GameState, f: GameState)
  {
    && |s.dealerHand| <= |f.dealerHand|
    && (|f.dealerHand| < |s.dealerHand| + |s.deck| ==>
      && ShoeLost(s, f, |f.dealerHand| - |s.dealerHand| + 1)
      && f.dealerHand == s.dealerHand + PopOrder(s.deck[..|s.deck| - 1], |f.dealerHand| - |s.dealerHand|))
  }

  /** The doubled card followed by `k` dealer draws is `k + 1` pops, the
      first to the player. */
  lemma DoubleDrewStep(s: GameState, d: GameState, f: GameState)
    requires d.dealerHand == s.dealerHand && |d.dealerHand| <= |f.dealerHand|
    requires |s.deck| > 0 ==>
      && d.deck == s.deck[..|s.deck| - 1]
      && d.runningCount == s.runningCount + CountValue(s.deck[|s.deck| - 1])
    requires |f.dealerHand| <= |d.dealerHand| + |d.deck| ==> DealerDrew(d, f, |f.dealerHand| - |d.dealerHand|)
    ensures DoubleDrew(s, f)
  {
    if |f.dealerHand| < |s.dealerHand| + |s.deck| {
      ShoeLostStep(s, d, f, |f.dealerHand| - |s.dealerHand|);
    }
  }

  /** Everything a double does before settling: the second stake, the
      player's one card, and the dealer's turn. */
  function DoublePlay(s: GameState, js: seq<nat>): (f: GameState)
    requires Admissible(js, ShoeSize)
    ensures |f.playerHand| == |s.playerHand| + 1 && f.playerHand[..|s.playerHand|] == s.playerHand
    ensures |s.deck| > 0 ==> f.playerHand == s.playerHand + [s.deck[|s.deck| - 1]]
    ensures f.balance == s.balance - s.stake && f.stake == 2.0 * s.stake && !f.firstAction
    ensures f.bestBalance == s.bestBalance
    ensures HandScore(f.playerHand) > 21 ==> f.dealerHand == s.dealerHand
    ensures HandScore(f.playerHand) <= 21 ==> HandScore(f.dealerHand) >= DealerStand
    ensures HandScore(s.dealerHand) >= DealerStand ==> f.dealerHand == s.dealerHand
    ensures |s.dealerHand| <= |f.dealerHand| && f.dealerHand[..|s.dealerHand|] == s.dealerHand
    ensures DoubleDrew(s, f)
  {
    var d := DoubleDraw(s, js);
    var f := DealerTurn(d, js);
    DoubleDrewStep(s, d, f);
    f
  }

  /** `doubleDown`: ignored unless `MayDouble`; refused with a message when the
      balance cannot cover a second stake. Otherwise the stake doubles, the
      player gets exactly one card, and the round is settled at once on a bust
      or after the dealer draws to 17. */
  function DoubleDown(s: GameState, js: seq<nat>): (r: GameState)
    requires Admissible(js, ShoeSize)
    ensures !MayDouble(s) ==> r == s
    ensures MayDouble(s) && s.balance < s.stake ==> r == s.(message := NotEnoughToDouble)
    ensures MayDouble(s) && s.balance >= s.stake ==>
      && |r.playerHand| == 3 && r.playerHand[..2] == s.playerHand
      && !r.roundActive && !r.firstAction && r.stake == 0.0
      && r.balance == s.balance - s.stake + Payout(Classify(r.playerHand, r.dealerHand), 2.0 * s.stake)
      && r.bestBalance == HighWater(s.bestBalance, r.balance)
      && r.message == Settled(Classify(r.playerHand, r.dealerHand), |r.deck| < ShuffleThreshold)
      && (HandScore(r.playerHand) > 21 ==> r.dealerHand == s.dealerHand)
      && (HandScore(r.playerHand) <= 21 ==> HandScore(r.dealerHand) >= DealerStand)
      && (|s.deck| > 0 ==> r.playerHand == s.playerHand + [s.deck[|s.deck| - 1]])
      && (HandScore(s.dealerHand) >= DealerStand ==> r.dealerHand == s.dealerHand)
      && |s.dealerHand| <= |r.dealerHand| && r.dealerHand[..|s.dealerHand|] == s.dealerHand
  {
    if !MayDouble(s) then s
    else if s.balance < s.stake then s.(message := NotEnoughToDouble)
    else
      var f := DoublePlay(s, js);
      SettleAfterDouble(s, f);
      Settle(f)
  }

  /** Settling the state a double left behind: the facts `DoublePlay` states
      about the doubled state carry over, and settling adds the payout on
      twice the stake, the high-water mark and the message. */
  lemma SettleAfterDouble(s: GameState, f: GameState)
    requires |f.playerHand| == |s.playerHand| + 1 && f.playerHand[..|s.playerHand|] == s.playerHand
    requires |s.deck| > 0 ==> f.playerHand == s.playerHand + [s.deck[|s.deck| - 1]]
    requires f.balance == s.balance - s.stake && f.stake == 2.0 * s.stake && !f.firstAction
    requires f.bestBalance == s.bestBalance
    requires HandScore(f.playerHand) > 21 ==> f.dealerHand == s.dealerHand
    requires HandScore(f.playerHand) <= 21 ==> HandScore(f.dealerHand) >= DealerStand
    requires HandScore(s.dealerHand) >= DealerStand ==> f.dealerHand == s.dealerHand
    requires |s.dealerHand| <= |f.dealerHand| && f.dealerHand[..|s.dealerHand|] == s.dealerHand
    ensures var r := Settle(f);
      && |r.playerHand| == |s.playerHand| + 1 && r.playerHand[..|s.playerHand|] == s.playerHand
      && !r.roundActive && !r.firstAction && r.stake == 0.0
      && r.balance == s.balance - s.stake + Payout(Classify(r.playerHand, r.dealerHand), 2.0 * s.stake)
      && r.bestBalance == HighWater(s.bestBalance, r.balance)
      && r.message == Settled(Classify(r.playerHand, r.dealerHand), |r.deck| < ShuffleThreshold)
      && (HandScore(r.playerHand) > 21 ==> r.dealerHand == s.dealerHand)
      && (HandScore(r.playerHand) <= 21 ==> HandScore(r.dealerHand) >= DealerStand)
      && (|s.deck| > 0 ==> r.playerHand == s.playerHand + [s.deck[|s.deck| - 1]])
      && (HandScore(s.dealerHand) >= DealerStand ==> r.dealerHand == s.dealerHand)
      && |s.dealerHand| <= |r.dealerHand| && r.dealerHand[..|s.dealerHand|] == s.dealerHand
  {
  }

  /** Where the cards of an accepted double come from: with `k` dealer
      draws, `k + 1` cards leave the top of the shoe and the count moves by
      their Hi-Lo values; the first goes to the player and the rest, in the
      order they are popped, to the dealer. */
  lemma DoubleDownDraws(s: GameState, js: seq<nat>)
    requires Admissible(js, ShoeSize)
    ensures MayDouble(s) && s.balance >= s.stake ==> DoubleDrew(s, DoubleDown(s, js))
  {
    if MayDouble(s) && s.balance >= s.stake {
      var f := DoublePlay(s, js);
      DrewSameCards(s, f, Settle(f));
    }
  }

  /** `DoubleDrew` looks only at the shoe, the count and the dealer's hand,
      none of which settling touches. */
  lemma DrewSameCards(s: GameState, f: GameState, r: GameState)
    requires DoubleDrew(s, f)
    requires r.deck == f.deck && r.runningCount == f.runningCount && r.dealerHand == f.dealerHand
    ensures DoubleDrew(s, r)
  {
  }

  /** What every reachable state satisfies: the balance is never negative and
      never above its high-water mark, a stake is held exactly while a round is
      open, and an open round is one whose naturals and busts have not yet been
      settled: the dealer still holds two cards without a natural, the player
      has not busted or drawn a natural, and the first action comes only on
      two cards. */
  function Valid(s: GameState): (v: bool)
    ensures v ==> (s.roundActive <==> s.stake > 0.0)
    ensures v && s.roundActive ==> HandScore(s.dealerHand) <= 20 && HandScore(s.playerHand) <= 21
  {
    var ok :=
      && 0.0 <= s.balance <= s.bestBalance
      && (!s.roundActive ==> s.stake == 0.0)
      && (s.roundActive ==>
            && s.stake >= MinBet
            && |s.dealerHand| == 2 && !IsNatural(s.dealerHand)
            && |s.playerHand| >= 2 && !IsNatural(s.playerHand)
            && HandScore(s.playerHand) <= 21
            && (s.firstAction ==> |s.playerHand| == 2));
    if ok && s.roundActive then
      TwoCardsNeverBust(s.dealerHand);
      ok
    else ok
  }

  /** The running count is the hi-lo total of the cards already dealt from
      the current shoe, so it and the total of the cards still in the shoe add
      up to the total of a full shoe, which is zero. */
  predicate CountMatchesShoe(s: GameState)
  {
    s.shoeCreated ==> s.runningCount + HiLoSum(s.deck) == 0
  }

  /** `resetGame`: the starting bankroll, no shoe, no hands, no round. */
  function Reset(): (r: GameState)
    ensures Valid(r) && !r.roundActive && !r.shoeCreated
    ensures r.balance == StartBalance && r.bestBalance == StartBalance
    ensures r.runningCount == 0 && r.deck == [] && r.playerHand == [] && r.dealerHand == []
    ensures r.stake == 0.0 && r.firstAction && r.message == GameReset
  {
    GameState([], [], [], StartBalance, StartBalance, 0.0, false, true, 0, false, GameReset)
  }

  /** The state after the page loads: a reset followed by building the shoe. */
  function Initial(js: seq<nat>): (r: GameState)
    requires Admissible(js, ShoeSize)
    ensures Valid(r) && !r.roundActive
    ensures |r.deck| == ShoeSize && IsFullShoe(r.deck, ShoeDecks) && r.runningCount == 0
  {
    CreateShoeComposition(ShoeDecks);
    EnsureShoe(Reset(), js)
  }

  /** The deal button is live only between rounds, for a finite bet between
      the minimum and the balance. */
  function DealEnabled(s: GameState, bet: BetInput): (enabled: bool)
    ensures enabled ==> bet.Amount? && ClampBet(bet) == bet.value <= s.balance
    ensures enabled ==> !HitStandEnabled(s) && !DoubleEnabled(s)
  {
    !s.roundActive && bet.Amount? && MinBet <= bet.value <= s.balance
  }

  /** The hit and stand buttons are live exactly during a round. */
  function HitStandEnabled(s: GameState): (enabled: bool)
    ensures Valid(s) ==> (enabled <==> s.stake > 0.0)
  {
    s.roundActive
  }

  /** The double button is live on the first action, with two cards, when the
      balance covers a second stake. */
  function DoubleEnabled(s: GameState): (enabled: bool)
    ensures enabled ==> HitStandEnabled(s) && |s.playerHand| == 2
    ensures Valid(s) ==> (enabled <==> s.roundActive && s.firstAction && s.balance >= s.stake)
  {
    MayDouble(s) && s.balance >= s.stake
  }
}

=== FILE: game_proofs.dfy ===
/** Properties of the round state machine that relate several transitions or
    hold over all of their inputs. */
module GameProofs {
  import opened Cards
  import opened Shoe
  import opened Scoring
  import opened Game

  // ---------------------------------------------------------------------------
  // Shoe and count

  /** The deal button's handler calls `ensureShoe` before `deal`, which calls
      it again: the second call finds a full enough shoe and does nothing. */
  lemma EnsureShoeIdempotent(s: GameState, js: seq<nat>, js': seq<nat>)
    requires Admissible(js, ShoeSize) && Admissible(js', ShoeSize)
    ensures EnsureShoe(EnsureShoe(s, js), js') == EnsureShoe(s, js)
  {
  }

  /** On a non-empty shoe `drawCard` pops the last card: nothing is
      reshuffled. */
  lemma DrawCardPops(s: GameState, js: seq<nat>)
    requires Admissible(js, ShoeSize) && |s.deck| > 0
    ensures DrawCard(s, js) == Pop(s)
  {
  }

  /** `n` consecutive `drawCard` calls on a shoe that holds at least `n`
      cards, the cards themselves discarded; by `DrawCardPops` each is a
      `Pop`. */
  function DrawMany(s: GameState, n: nat): GameState
    requires n <= |s.deck|
    decreases n
  {
    if n == 0 then s else DrawMany(Pop(s).1, n - 1)
  }

  /** Drawing `n` cards from a shoe that holds at least `n` takes them off its
      end and adds their hi-lo weights to the running count. */
  lemma {:induction false} DrawManyCount(s: GameState, n: nat)
    requires n <= |s.deck|
    ensures DrawMany(s, n).deck == s.deck[..|s.deck| - n]
    ensures DrawMany(s, n).runningCount == s.runningCount + HiLoSum(s.deck[|s.deck| - n..])
    decreases n
  {
    var m := |s.deck| - n;
    if n == 0 {
      assert s.deck[m..] == [];
    } else {
      DrawManyCount(Pop(s).1, n - 1);
      PopSlices(s.deck, n - 1);
    }
  }

  /** An accepted deal adds the hi-lo weights of the four dealt cards to the
      running count (after any reshuffle). */
  lemma DealCounts(s: GameState, bet: BetInput, js: seq<nat>)
    requires Admissible(js, ShoeSize) && ClampBet(bet) <= s.balance
    ensures var e := EnsureShoe(s, js); var n := |e.deck|;
      Deal(s, bet, js).runningCount == e.runningCount + HiLoSum(e.deck[n - 4..])
  {
    var e := EnsureShoe(s, js);
    var d := DealHands(StartRound(e, ClampBet(bet)));
    assert Deal(s, bet, js).runningCount == d.runningCount;
  }

  /** Dealing out a whole unshuffled shoe, starting from a zero count, brings
      the running count back to zero. */
  lemma UnshuffledShoeCountsToZero(s: GameState)
    requires s.deck == CreateShoe(ShoeDecks) && s.runningCount == 0
    ensures DrawMany(s, ShoeSize).deck == []
    ensures DrawMany(s, ShoeSize).runningCount == 0
  {
    CreateShoeComposition(ShoeDecks);
    DrawManyCount(s, ShoeSize);
    assert s.deck[0..] == s.deck;
  }

  /** The same holds for every shuffle: after a reshuffle, dealing out the
      whole shoe brings the running count back to zero. */
  lemma ReshuffledShoeCountsToZero(s: GameState, js: seq<nat>)
    requires Admissible(js, ShoeSize)
    requires !(s.shoeCreated && |s.deck| >= ShuffleThreshold)
    ensures DrawMany(EnsureShoe(s, js), ShoeSize).deck == []
    ensures DrawMany(EnsureShoe(s, js), ShoeSize).runningCount == 0
  {
    var e := EnsureShoe(s, js);
    assert |e.deck| == ShoeSize && e.runningCount + HiLoSum(e.deck) == 0 by {
      NewShoeCountsZero(js);
    }
    WholeShoeDrawn(e);
  }

  /** A shoe whose count already matches its cards returns to a zero count
      once every card in it is drawn. */
  lemma WholeShoeDrawn(f: GameState)
    requires f.runningCount + HiLoSum(f.deck) == 0
    ensures DrawMany(f, |f.deck|).deck == []
    ensures DrawMany(f, |f.deck|).runningCount == 0
  {
    DrawManyCount(f, |f.deck|);
    assert f.deck[0..] == f.deck;
  }

  // ---------------------------------------------------------------------------
  // The running count tracks the shoe

  /** Every shuffle of a new shoe has a hi-lo total of zero. */
  lemma NewShoeCountsZero(js: seq<nat>)
    requires Admissible(js, ShoeSize)
    ensures HiLoSum(NewShoe(js)) == 0
  {
    CreateShoeComposition(ShoeDecks);
    HiLoPermutation(NewShoe(js), CreateShoe(ShoeDecks));
  }

  lemma EnsureShoeKeepsCount(s: GameState, js: seq<nat>)
    requires Admissible(js, ShoeSize) && CountMatchesShoe(s)
    ensures CountMatchesShoe(EnsureShoe(s, js))
  {
    NewShoeCountsZero(js);
  }

  /** A pop moves the top card's weight from the shoe into the count. */
  lemma PopKeepsCount(s: GameState)
    requires |s.deck| > 0 && CountMatchesShoe(s)
    ensures CountMatchesShoe(Pop(s).1)
  {
    var (c, t) := Pop(s);
    HiLoSnoc(t.deck, c);
  }

  lemma DrawCardKeepsCount(s: GameState, js: seq<nat>)
    requires Admissible(js, ShoeSize) && CountMatchesShoe(s)
    ensures CountMatchesShoe(DrawCard(s, js).1)
  {
    if |s.deck| == 0 {
      EnsureShoeKeepsCount(s, js);
      PopKeepsCount(EnsureShoe(s, js));
    } else {
      PopKeepsCount(s);
    }
  }

  lemma PlayerHitKeepsCount(s: GameState, js: seq<nat>)
    requires Admissible(js, ShoeSize) && CountMatchesShoe(s)
    ensures CountMatchesShoe(PlayerHit(s, js))
  {
    DrawCardKeepsCount(s, js);
  }

  lemma {:induction false} DealerPlayKeepsCount(s: GameState, js: seq<nat>)
    requires Admissible(js, ShoeSize) && CountMatchesShoe(s)
    ensures CountMatchesShoe(DealerPlay(s, js))
    decreases DealerStand - HardTotal(s.dealerHand)
  {
    if HandScore(s.dealerHand) < DealerStand {
      var t := DealerHit(s, js);
      DrawCardKeepsCount(s, js);
      assert CountMatchesShoe(t);
      assert DealerPlay(s, js) == DealerPlay(t, js);
      DealerPlayKeepsCount(t, js);
    }
  }

  lemma SettleKeepsCount(s: GameState)
    requires CountMatchesShoe(s)
    ensures CountMatchesShoe(Settle(s))
  {
  }

  /** From the page load on, every action keeps the running count equal to
      the hi-lo total of the cards dealt from the current shoe. */
  lemma InitialCountMatches(js: seq<nat>)
    requires Admissible(js, ShoeSize)
    ensures CountMatchesShoe(Initial(js)) && CountMatchesShoe(Reset())
  {
    EnsureShoeKeepsCount(Reset(), js);
  }

  /** Cards that leave the shoe for the count keep the two in step. */
  lemma ShoeLostKeepsCount(s: GameState, r: GameState, m: nat)
    requires CountMatchesShoe(s) && s.shoeCreated && ShoeLost(s, r, m)
    ensures CountMatchesShoe(r)
  {
    HiLoSplit(s.deck, |s.deck| - m);
  }

  lemma DealKeepsCount(s: GameState, bet: BetInput, js: seq<nat>)
    requires Admissible(js, ShoeSize) && CountMatchesShoe(s)
    ensures CountMatchesShoe(Deal(s, bet, js))
  {
    var e := EnsureShoe(s, js);
    var r := Deal(s, bet, js);
    assert CountMatchesShoe(e) by {
      EnsureShoeKeepsCount(s, js);
    }
    if ClampBet(bet) <= s.balance {
      assert CountMatchesShoe(r) by {
        ShoeLostKeepsCount(e, r, 4);
      }
    } else {
      assert r == e.(message := NotEnoughBalance);
    }
  }

  lemma HitKeepsCount(s: GameState, js: seq<nat>)
    requires Admissible(js, ShoeSize) && CountMatchesShoe(s)
    ensures CountMatchesShoe(Hit(s, js))
  {
    PlayerHitKeepsCount(s, js);
  }

  lemma StandKeepsCount(s: GameState, js: seq<nat>)
    requires Admissible(js, ShoeSize) && CountMatchesShoe(s)
    ensures CountMatchesShoe(Stand(s, js))
  {
    DealerPlayKeepsCount(s.(firstAction := false), js);
  }

  lemma DoubleDownKeepsCount(s: GameState, js: seq<nat>)
    requires Admissible(js, ShoeSize) && CountMatchesShoe(s)
    ensures CountMatchesShoe(DoubleDown(s, js))
  {
    if MayDouble(s) && s.balance >= s.stake {
      var d := DoubleDraw(s, js);
      PlayerHitKeepsCount(RaiseStake(s), js);
      DealerPlayKeepsCount(d, js);
      assert CountMatchesShoe(DoublePlay(s, js));
    }
  }

  // ---------------------------------------------------------------------------
  // The dealer's loop

  /** The dealer stops at the first hand that reaches 17: every hand it passed
      through on the way scored below 17. */
  lemma {:induction false} DealerStopsAtFirstSeventeen(s: GameState, js: seq<nat>)
    requires Admissible(js, ShoeSize)
    ensures var r := DealerPlay(s, js);
      forall k | |s.dealerHand| <= k < |r.dealerHand| :: HandScore(r.dealerHand[..k]) < DealerStand
    decreases DealerStand - HardTotal(s.dealerHand)
  {
    var r := DealerPlay(s, js);
    if HandScore(s.dealerHand) < DealerStand {
      HandScoreBounds(s.dealerHand);
      var t' := DealerHit(s, js);
      assert r == DealerPlay(t', js);
      DealerStopsAtFirstSeventeen(t', js);
      var m := |s.dealerHand|;
      forall k | m <= k < |r.dealerHand|
        ensures HandScore(r.dealerHand[..k]) < DealerStand
      {
        if k == m {
          assert r.dealerHand[..k] == r.dealerHand[..m + 1][..m] == s.dealerHand;
        }
      }
    }
  }

  /** The dealer draws at most 17 minus its all-low total cards, so the loop
      always ends after at most 17 draws. */
  lemma {:induction false} DealerDrawBound(s: GameState, js: seq<nat>)
    requires Admissible(js, ShoeSize)
    ensures |DealerPlay(s, js).dealerHand| - |s.dealerHand| <= if HardTotal(s.dealerHand) < DealerStand then DealerStand - HardTotal(s.dealerHand) else 0
    decreases DealerStand - HardTotal(s.dealerHand)
  {
    if HandScore(s.dealerHand) < DealerStand {
      HandScoreBounds(s.dealerHand);
      var t' := DealerHit(s, js);
      DealerDrawBound(t', js);
    }
  }

  // ---------------------------------------------------------------------------
  // Settlement

  /** The payout table without the priority order: each outcome stated by the
      scores and naturals that produce it. */
  lemma ClassifyCharacterisation(player: seq<Card>, dealer: seq<Card>)
    ensures var ps, ds, pn, dn := HandScore(player), HandScore(dealer), IsNatural(player), IsNatural(dealer);
      && (Classify(player, dealer) == PlayerBust <==> ps > 21)
      && (Classify(player, dealer) == PlayerBlackjack <==> pn && !dn)
      && (Classify(player, dealer) == DealerBlackjack <==> ps <= 21 && dn && !pn)
      && (Classify(player, dealer) == DealerBust <==> ps <= 21 && ds > 21 && !pn)
      && (Classify(player, dealer) == PlayerWins <==> ds < ps <= 21 && !pn && !dn)
      && (Classify(player, dealer) == DealerWins <==> ps < ds <= 21 && !dn)
      && (Classify(player, dealer) == Push <==> ps == ds <= 21 && (pn <==> dn))
  {
  }

  /** Settlement credits nothing, the stake, twice the stake or two and a half
      times the stake. */
  lemma PayoutIsOneOf(o: Outcome, stake: real)
    ensures Payout(o, stake) in {0.0, stake, 2.0 * stake, 2.5 * stake}
    ensures stake >= 0.0 ==> Payout(o, stake) >= 0.0
  {
  }

  /** What a settlement wins or loses against the money on the table before
      it (balance plus stake): a blackjack wins one and a half times the
      stake, a win wins the stake, a push returns it, a loss forfeits it. */
  lemma SettleNet(s: GameState)
    ensures var o, net := Classify(s.playerHand, s.dealerHand), Settle(s).balance - (s.balance + s.stake);
      && (o == PlayerBlackjack ==> net == 1.5 * s.stake)
      && (o == DealerBust || o == PlayerWins ==> net == s.stake)
      && (o == Push ==> net == 0.0)
      && (o == PlayerBust || o == DealerBlackjack || o == DealerWins ==> net == -s.stake)
  {
  }

  /** The naturals settled at the deal: a player natural alone pays 3 to 2 on
      the bet, a dealer natural alone takes it, and two naturals push. */
  lemma DealtNaturals(s: GameState, bet: BetInput, js: seq<nat>)
    requires Admissible(js, ShoeSize) && ClampBet(bet) <= s.balance
    ensures var r, b := Deal(s, bet, js), ClampBet(bet);
      && (IsNatural(r.playerHand) && !IsNatural(r.dealerHand) ==>
            r.message.outcome == PlayerBlackjack && r.balance == s.balance + 1.5 * b)
      && (IsNatural(r.dealerHand) && !IsNatural(r.playerHand) ==>
            r.message.outcome == DealerBlackjack && r.balance == s.balance - b)
      && (IsNatural(r.playerHand) && IsNatural(r.dealerHand) ==>
            r.message.outcome == Push && r.balance == s.balance)
  {
    var r := Deal(s, bet, js);
    TwoCardsNeverBust(r.playerHand);
  }

  /** A double down plays for twice the stake: against the money on the table
      before it, a win gains two stakes, a push gains nothing and a loss
      forfeits two stakes. Three cards are never a blackjack. */
  lemma DoubleDownNet(s: GameState, js: seq<nat>)
    requires Admissible(js, ShoeSize) && MayDouble(s) && s.balance >= s.stake
    ensures var r := DoubleDown(s, js);
      var o, net := Classify(r.playerHand, r.dealerHand), r.balance - (s.balance + s.stake);
      && o != PlayerBlackjack
      && (o == DealerBust || o == PlayerWins ==> net == 2.0 * s.stake)
      && (o == Push ==> net == 0.0)
      && (o == PlayerBust || o == DealerBlackjack || o == DealerWins ==> net == -2.0 * s.stake)
  {
  }

  // ---------------------------------------------------------------------------
  // The invariant

  lemma SettleValid(s: GameState)
    requires Valid(s)
    ensures Valid(Settle(s))
  {
    PayoutIsOneOf(Classify(s.playerHand, s.dealerHand), s.stake);
  }

  lemma DealValid(s: GameState, bet: BetInput, js: seq<nat>)
    requires Valid(s) && Admissible(js, ShoeSize)
    ensures Valid(Deal(s, bet, js))
  {
    var r := Deal(s, bet, js);
    if ClampBet(bet) <= s.balance {
      TwoCardsNeverBust(r.playerHand);
      PayoutIsOneOf(Classify(r.playerHand, r.dealerHand), ClampBet(bet));
    }
  }

  lemma HitValid(s: GameState, js: seq<nat>)
    requires Valid(s) && Admissible(js, ShoeSize)
    ensures Valid(Hit(s, js))
  {
    if s.roundActive {
      var h := PlayerHit(s, js);
      PayoutIsOneOf(Classify(h.playerHand, h.dealerHand), h.stake);
    }
  }

  lemma StandValid(s: GameState, js: seq<nat>)
    requires Valid(s) && Admissible(js, ShoeSize)
    ensures Valid(Stand(s, js))
  {
    if s.roundActive {
      var d := DealerPlay(s.(firstAction := false), js);
      PayoutIsOneOf(Classify(d.playerHand, d.dealerHand), d.stake);
    }
  }

  lemma DoubleDownValid(s: GameState, js: seq<nat>)
    requires Valid(s) && Admissible(js, ShoeSize)
    ensures Valid(DoubleDown(s, js))
  {
    var r := DoubleDown(s, js);
    if !MayDouble(s) {
      assert r == s;
    } else if s.balance < s.stake {
      assert r == s.(message := NotEnoughToDouble);
    } else {
      PayoutIsOneOf(Classify(r.playerHand, r.dealerHand), 2.0 * s.stake);
      assert 0.0 <= r.balance <= r.bestBalance && !r.roundActive && r.stake == 0.0;
    }
  }

  /** In a valid open round the dealer's natural and the player's natural have
      already been settled at the deal, so standing never settles as either. */
  lemma StandNeverSettlesNatural(s: GameState, js: seq<nat>)
    requires Valid(s) && Admissible(js, ShoeSize) && s.roundActive
    ensures Stand(s, js).message.outcome != PlayerBlackjack
    ensures Stand(s, js).message.outcome != DealerBlackjack
  {
    var r := Stand(s, js);
    if |r.dealerHand| == 2 {
      assert r.dealerHand == s.dealerHand;
    }
  }

  // ---------------------------------------------------------------------------
  // Money

  /** Starting a round from between rounds moves the bet from the balance to
      the stake: their sum is unchanged until settlement. */
  lemma DealConservesMoney(s: GameState, bet: BetInput, js: seq<nat>)
    requires Valid(s) && !s.roundActive && Admissible(js, ShoeSize)
    ensures var r := Deal(s, bet, js);
      r.roundActive ==> r.balance + r.stake == s.balance + s.stake
  {
  }

  /** A refused bet moves no money and deals no cards. */
  lemma DealRefusedKeepsMoney(s: GameState, bet: BetInput, js: seq<nat>)
    requires Admissible(js, ShoeSize) && ClampBet(bet) > s.balance
    ensures var r := Deal(s, bet, js);
      && r.balance == s.balance && r.stake == s.stake && r.bestBalance == s.bestBalance
      && r.playerHand == s.playerHand && r.dealerHand == s.dealerHand
      && r.roundActive == s.roundActive && r.message == NotEnoughBalance
  {
  }

  /** A refused double moves no money and deals no cards. */
  lemma DoubleRefusedKeepsMoney(s: GameState, js: seq<nat>)
    requires Admissible(js, ShoeSize) && !DoubleEnabled(s)
    ensures var r := DoubleDown(s, js);
      && r.balance == s.balance && r.stake == s.stake && r.bestBalance == s.bestBalance
      && r.playerHand == s.playerHand && r.dealerHand == s.dealerHand && r.deck == s.deck
  {
  }

  // ---------------------------------------------------------------------------
  // Wrong-state actions and the buttons

  /** After a hit the double is refused: either the round is over or it is no
      longer the first action. */
  lemma NoDoubleAfterHit(s: GameState, js: seq<nat>, js': seq<nat>)
    requires Admissible(js, ShoeSize) && Admissible(js', ShoeSize)
    ensures DoubleDown(Hit(s, js), js') == Hit(s, js)
  {
  }

  /** After a stand the round is over, so hit, stand and double all do
      nothing. */
  lemma NothingAfterStand(s: GameState, js: seq<nat>, js': seq<nat>)
    requires Admissible(js, ShoeSize) && Admissible(js', ShoeSize) && s.roundActive
    ensures var r := Stand(s, js);
      Hit(r, js') == r && Stand(r, js') == r && DoubleDown(r, js') == r
  {
  }

  /** A live deal button means `deal` accepts the bet as typed. */
  lemma DealEnabledAccepts(s: GameState, bet: BetInput, js: seq<nat>)
    requires Admissible(js, ShoeSize) && DealEnabled(s, bet)
    ensures ClampBet(bet) == bet.value
    ensures Deal(s, bet, js).message != NotEnoughBalance
    ensures var r := Deal(s, bet, js);
      r.roundActive ==> r.stake == bet.value && r.balance == s.balance - bet.value
  {
  }

  /** Between rounds, for a typed bet at or above the minimum, the deal button
      is live exactly when `deal` accepts the bet. */
  lemma DealEnabledIffAccepted(s: GameState, bet: BetInput, js: seq<nat>)
    requires Admissible(js, ShoeSize) && !s.roundActive && bet.Amount? && bet.value >= MinBet
    ensures DealEnabled(s, bet) <==> Deal(s, bet, js).message != NotEnoughBalance
  {
  }

  /** The double button is live exactly when doubling deals the player a card. */
  lemma DoubleEnabledIffDoubles(s: GameState, js: seq<nat>)
    requires Admissible(js, ShoeSize)
    ensures DoubleEnabled(s) <==> |DoubleDown(s, js).playerHand| == |s.playerHand| + 1
  {
  }

  /** The hit and stand buttons are live exactly when hitting deals the player
      a card and standing ends the round. */
  lemma HitStandEnabledIffActs(s: GameState, js: seq<nat>)
    requires Admissible(js, ShoeSize)
    ensures HitStandEnabled(s) <==> |Hit(s, js).playerHand| == |s.playerHand| + 1
    ensures HitStandEnabled(s) <==> Stand(s, js) != s
  {
    if s.roundActive {
      assert !Stand(s, js).roundActive;
    }
  }
}

=== FILE: scoring.dfy ===
/** Blackjack hand totals, as `handScore` (game.js) computes them: every ace
    starts at 11 and aces are demoted to 1, one at a time, while the total is
    over 21. */
module Scoring {
  import opened Cards

  /** The total with every ace counted as 11. */
  function RawTotal(hand: seq<Card>): int
  {
    if |hand| == 0 then 0 else RawTotal(hand[..|hand| - 1]) + CardValue(hand[|hand| - 1])
  }

  /** The total with every ace counted as 1. */
  function HardTotal(hand: seq<Card>): int
  {
    if |hand| == 0 then 0 else HardTotal(hand[..|hand| - 1]) + HardValue(hand[|hand| - 1])
  }

  /** The number of aces in the hand. */
  function AceCount(hand: seq<Card>): nat
  {
    if |hand| == 0 then 0
    else AceCount(hand[..|hand| - 1]) + (if hand[|hand| - 1].rank == Ace then 1 else 0)
  }

  lemma {:induction false} HardTotalByAces(hand: seq<Card>)
    ensures HardTotal(hand) == RawTotal(hand) - 10 * AceCount(hand)
    decreases |hand|
  {
    if |hand| > 0 {
      var init, last := hand[..|hand| - 1], hand[|hand| - 1];
      HardTotalByAces(init);
      assert hand == init + [last];
    }
  }

  /** Adding a card to a hand adds its value to the totals. */
  lemma TotalsSnoc(hand: seq<Card>, c: Card)
    ensures RawTotal(hand + [c]) == RawTotal(hand) + CardValue(c)
    ensures AceCount(hand + [c]) == AceCount(hand) + (if c.rank == Ace then 1 else 0)
  {
    assert (hand + [c])[..|hand|] == hand;
  }

  lemma HardTotalSnoc(hand: seq<Card>, c: Card)
    ensures HardTotal(hand + [c]) == HardTotal(hand) + HardValue(c)
    ensures HardTotal(hand + [c]) > HardTotal(hand)
  {
    assert (hand + [c])[..|hand|] == hand;
    CardValueRange(c);
  }

  /** The demotion loop: `score` is the running total, `aces` the number of
      aces still counted as 11; an ace is demoted while the total is over 21. */
  function Demote(score: int, aces: nat): int
    decreases aces
  {
    if score > 21 && aces > 0 then Demote(score - 10, aces - 1) else score
  }

  /** The demotion loop takes off some multiple of ten, at most ten per ace;
      the result is over 21 only when every ace was demoted, and a demotion
      happens only when the total without it would be over 21. */
  lemma {:induction false} DemoteBounds(score: int, aces: nat)
    ensures var r := Demote(score, aces);
      && r <= score && (score - r) % 10 == 0 && score - r <= 10 * aces
      && (r > 21 ==> r == score - 10 * aces)
      && (r < score ==> r + 10 > 21)
    decreases aces
  {
    if score > 21 && aces > 0 {
      DemoteBounds(score - 10, aces - 1);
    }
  }

  /** The hand's score: between the all-low and the all-high total, and over
      21 only when every ace already counts low. */
  function HandScore(hand: seq<Card>): (score: int)
    ensures HardTotal(hand) <= score <= RawTotal(hand)
    ensures score > 21 ==> score == HardTotal(hand)
  {
    HardTotalByAces(hand);
    DemoteBounds(RawTotal(hand), AceCount(hand));
    Demote(RawTotal(hand), AceCount(hand))
  }

  /** The score is the all-high total less some multiple of ten no larger than
      the number of aces, so never below the all-low total; it is over 21 only
      once every ace has been demoted, and an ace is demoted only when keeping
      it at 11 would bust the hand. */
  lemma HandScoreBounds(hand: seq<Card>)
    ensures HandScore(hand) <= RawTotal(hand) && (RawTotal(hand) - HandScore(hand)) % 10 == 0
    ensures HardTotal(hand) <= HandScore(hand)
    ensures HandScore(hand) > 21 ==> HandScore(hand) == HardTotal(hand)
    ensures HandScore(hand) < RawTotal(hand) ==> HandScore(hand) > 11
  {
    HardTotalByAces(hand);
    DemoteBounds(RawTotal(hand), AceCount(hand));
  }

  /** The score is the best total the hand can make: no choice of aces to
      demote gives a larger total that does not bust, and if some choice does
      not bust then neither does the score. */
  lemma HandScoreIsBest(hand: seq<Card>, k: nat)
    requires k <= AceCount(hand)
    requires RawTotal(hand) - 10 * k <= 21
    ensures RawTotal(hand) - 10 * k <= HandScore(hand) <= 21
  {
    HardTotalByAces(hand);
    HandScoreBounds(hand);
    DemoteBounds(RawTotal(hand), AceCount(hand));
  }

  /** Two cards score 21 exactly when one is an ace and the other is worth
      ten: the all-high total of two cards is at most 22, and a demotion would
      leave at most 12. */
  lemma TwoCardTwentyOne(hand: seq<Card>)
    requires |hand| == 2
    ensures HandScore(hand) == 21 <==>
      || (hand[0].rank == Ace && CardValue(hand[1]) == 10)
      || (hand[1].rank == Ace && CardValue(hand[0]) == 10)
  {
    assert RawTotal(hand[..1]) == CardValue(hand[0]) by {
      assert hand[..1][..0] == [];
    }
    assert RawTotal(hand) == RawTotal(hand[..1]) + CardValue(hand[1]);
    CardValueRange(hand[0]);
    CardValueRange(hand[1]);
    HandScoreBounds(hand);
  }

  /** A two-card 21, which is an ace with a ten, jack, queen or king. */
  function IsNatural(hand: seq<Card>): (natural: bool)
    ensures natural <==>
      && |hand| == 2
      && (|| (hand[0].rank == Ace && CardValue(hand[1]) == 10)
          || (hand[1].rank == Ace && CardValue(hand[0]) == 10))
  {
    if |hand| == 2 then
      TwoCardTwentyOne(hand);
      HandScore(hand) == 21
    else false
  }

  /** Two cards never bust: the all-low total of two cards is at most 20. */
  lemma TwoCardsNeverBust(hand: seq<Card>)
    requires |hand| == 2
    ensures HandScore(hand) <= 21
  {
    assert HardTotal(hand[..1]) == HardValue(hand[0]) by {
      assert hand[..1][..0] == [];
    }
    assert HardTotal(hand) == HardTotal(hand[..1]) + HardValue(hand[1]);
    CardValueRange(hand[0]);
    CardValueRange(hand[1]);
    HandScoreBounds(hand);
  }

  /** Sample hands: ace-six is a soft 17, ace-six-ten a hard 17 (not 27), and
      ace-king a natural. */
  lemma ScoreExamples()
    ensures HandScore([Card(Spades, Ace), Card(Hearts, Six)]) == 17
    ensures HandScore([Card(Spades, Ace), Card(Hearts, Six), Card(Clubs, Ten)]) == 17
    ensures HandScore([Card(Spades, Ace), Card(Diamonds, King)]) == 21
    ensures IsNatural([Card(Spades, Ace), Card(Diamonds, King)])
  {
    var a6 := [Card(Spades, Ace), Card(Hearts, Six)];
    var a6t := a6 + [Card(Clubs, Ten)];
    var ak := [Card(Spades, Ace), Card(Diamonds, King)];
    assert RawTotal(a6) == 17 && AceCount(a6) == 1 by {
      assert a6 == [Card(Spades, Ace)] + [Card(Hearts, Six)];
      TotalsSnoc([Card(Spades, Ace)], Card(Hearts, Six));
      TotalsSnoc([], Card(Spades, Ace));
    }
    assert RawTotal(a6t) == 27 && AceCount(a6t) == 1 by {
      TotalsSnoc(a6, Card(Clubs, Ten));
    }
    assert [Card(Spades, Ace), Card(Hearts, Six), Card(Clubs, Ten)] == a6t;
    assert RawTotal(ak) == 21;
  }
}

=== FILE: shoe.dfy ===
/** The Fisher-Yates shuffle of `shuffleInPlace` (game.js), with the random
    source replaced by an index oracle: `js[i]` is the position that the loop
    step at index `i` swaps with position `i`. */
module Shoe {
  import opened Cards

  /** The indices the random draw of the loop can produce for a sequence of
      `n` cards: a whole number from zero up to the loop index itself, so
      `0 <= js[i] <= i` for every loop index `i >= 1` (entry 0 is never
      read). */
  predicate Admissible(js: seq<nat>, n: nat)
  {
    |js| == n && forall i | 0 < i < n :: js[i] <= i
  }

  function Swap(a: seq<Card>, i: nat, j: nat): (r: seq<Card>)
    requires i < |a| && j < |a|
    ensures |r| == |a| && r[i] == a[j] && r[j] == a[i]
    ensures forall k | 0 <= k < |a| && k != i && k != j :: r[k] == a[k]
    ensures multiset(r) == multiset(a)
  {
    a[i := a[j]][j := a[i]]
  }

  /** Loop steps `i, i - 1, ..., 1`. Steps never touch a position above the
      current index, so everything above `i` is left as it was. */
  function ShuffleFrom(a: seq<Card>, js: seq<nat>, i: nat): (r: seq<Card>)
    requires Admissible(js, |a|) && i < |a|
    ensures |r| == |a|
    ensures multiset(r) == multiset(a)
    ensures forall k | i < k < |a| :: r[k] == a[k]
    decreases i
  {
    if i == 0 then a else ShuffleFrom(Swap(a, i, js[i]), js, i - 1)
  }

  /** The whole loop: the index runs down from the last position to 1. */
  function Shuffle(a: seq<Card>, js: seq<nat>): (r: seq<Card>)
    requires Admissible(js, |a|)
    ensures |r| == |a|
    ensures multiset(r) == multiset(a)
  {
    if |a| == 0 then a else ShuffleFrom(a, js, |a| - 1)
  }

  /** Shuffling does not change the hi-lo total of the cards. */
  lemma ShuffleKeepsHiLo(a: seq<Card>, js: seq<nat>)
    requires Admissible(js, |a|)
    ensures HiLoSum(Shuffle(a, js)) == HiLoSum(a)
  {
    HiLoPermutation(Shuffle(a, js), a);
  }

  lemma MultisetCancel(m1: multiset<Card>, m2: multiset<Card>, x: Card)
    requires m1 + multiset{x} == m2 + multiset{x}
    ensures m1 == m2
  {
    forall y
      ensures m1[y] == m2[y]
    {
      assert (m1 + multiset{x})[y] == m1[y] + multiset{x}[y];
      assert (m2 + multiset{x})[y] == m2[y] + multiset{x}[y];
    }
  }

  /** A swap at or below `i` stays within the first `i + 1` positions. */
  lemma SwapWithin(a: seq<Card>, i: nat, j: nat)
    requires j <= i < |a|
    ensures Swap(a, i, j)[..i + 1] == Swap(a[..i + 1], i, j)
    ensures Swap(a, i, j)[i + 1..] == a[i + 1..]
  {
  }

  /** Swapping into position `i` the card `b` holds there leaves the same
      cards as `b` below `i`. */
  lemma SwapPrefix(a: seq<Card>, b: seq<Card>, i: nat, j: nat)
    requires |b| == |a| && j <= i < |a| && a[j] == b[i]
    requires multiset(a[..i + 1]) == multiset(b[..i + 1])
    ensures multiset(Swap(a, i, j)[..i]) == multiset(b[..i])
  {
    var a' := Swap(a, i, j);
    SwapWithin(a, i, j);
    assert a'[..i + 1] == a'[..i] + [b[i]] && b[..i + 1] == b[..i] + [b[i]];
    MultisetCancel(multiset(a'[..i]), multiset(b[..i]), b[i]);
  }

  /** One step towards `b`: swapping into position `i` a card that `b` holds
      there extends the agreement with `b` down to `i`. */
  lemma SwapIntoPlace(a: seq<Card>, b: seq<Card>, i: nat, j: nat)
    requires |b| == |a| && j <= i < |a| && a[j] == b[i]
    requires multiset(a[..i + 1]) == multiset(b[..i + 1]) && a[i + 1..] == b[i + 1..]
    ensures multiset(Swap(a, i, j)[..i]) == multiset(b[..i])
    ensures Swap(a, i, j)[i..] == b[i..]
  {
    SwapPrefix(a, b, i, j);
    var a' := Swap(a, i, j);
    SwapWithin(a, i, j);
    assert a'[i..] == [a'[i]] + a'[i + 1..] && b[i..] == [b[i]] + b[i + 1..];
  }

  /** With nothing left to swap, agreeing above 0 and on the multiset of the
      first card means agreeing everywhere. */
  lemma AgreeFromBottom(a: seq<Card>, b: seq<Card>)
    requires |b| == |a| > 0
    requires multiset(a[..1]) == multiset(b[..1]) && a[1..] == b[1..]
    ensures a == b
  {
    assert a[..1] == [a[0]] && b[..1] == [b[0]];
    assert multiset{a[0]}[b[0]] == multiset{b[0]}[b[0]];
    assert a == a[..1] + a[1..] && b == b[..1] + b[1..];
  }

  /** A position at or below `i` in `a` holds the card `b` wants at `i`. */
  lemma SourceFor(a: seq<Card>, b: seq<Card>, i: nat) returns (j: nat)
    requires |b| == |a| && i < |a|
    requires multiset(a[..i + 1]) == multiset(b[..i + 1])
    ensures j <= i && a[j] == b[i]
  {
    assert b[i] in multiset(b[..i + 1]) by { assert b[..i + 1][i] == b[i]; }
    var k :| 0 <= k <= i && a[..i + 1][k] == b[i];
    j := k;
  }

  /** Steps `i` down to 1 can bring `a` to any order `b` that agrees with it
      above `i` and holds the same cards at and below `i`: at each step choose
      a position that holds the card `b` wants at `i`. The oracle returned
      keeps the entries of `js` above `i`. */
  lemma {:induction false} OracleFor(a: seq<Card>, b: seq<Card>, i: nat, js: seq<nat>) returns (js': seq<nat>)
    requires Admissible(js, |a|) && |b| == |a| && i < |a|
    requires multiset(a[..i + 1]) == multiset(b[..i + 1]) && a[i + 1..] == b[i + 1..]
    ensures Admissible(js', |a|)
    ensures forall k | i < k < |a| :: js'[k] == js[k]
    ensures ShuffleFrom(a, js', i) == b
    decreases i
  {
    if i == 0 {
      AgreeFromBottom(a, b);
      js' := js;
    } else {
      var j := SourceFor(a, b, i);
      var a' := Swap(a, i, j);
      assert multiset(a'[..i - 1 + 1]) == multiset(b[..i - 1 + 1]) && a'[i - 1 + 1..] == b[i - 1 + 1..] by {
        SwapIntoPlace(a, b, i, j);
        assert a'[..i] == a'[..i - 1 + 1] && a'[i - 1 + 1..] == a'[i..];
      }
      var js1 := js[i := j];
      js' := OracleFor(a', b, i - 1, js1);
      assert ShuffleFrom(a, js', i) == ShuffleFrom(a', js', i - 1) by { assert js'[i] == j; }
    }
  }

  /** Every ordering of the cards is the result of some admissible oracle:
      the Fisher-Yates loop can produce any permutation of its input. */
  lemma EveryOrderReachable(a: seq<Card>, b: seq<Card>) returns (js: seq<nat>)
    requires multiset(a) == multiset(b)
    ensures Admissible(js, |a|) && Shuffle(a, js) == b
  {
    assert |a| == |multiset(a)| == |multiset(b)| == |b|;
    js := seq(|a|, k => 0);
    if |a| == 0 {
      assert b == [];
    } else {
      assert a[..|a|] == a && b[..|b|] == b;
      assert a[|a|..] == [] == b[|b|..];
      js := OracleFor(a, b, |a| - 1, js);
    }
  }
}
